=== FILE: README.md ===
# backtrace, modelled in Dafny

`backtrace.py` makes Python tracebacks readable. It can run as an excepthook: given the
frames of a failure, it restyles each frame and optionally strips paths and aligns
columns. It prints a header, one line per frame and an error line, optionally in reverse
order. Fed on standard input, it instead reads a traceback Python has already printed,
splits off the lines that precede it, recovers the frame tuples and the error type and
value, and prints them again the same way.

This project models that core:

- `styles.dfy` (module `Styles`): the colorama codes, `STYLES` and `CONVERVATIVE_STYLES`,
  and the choice or completion of the style set in `hook`.
- `formatter.dfy` (module `Formatter`): the `_Hook` class. Its entry list is a field that
  `Reverse` reassigns. `align_all` and `generate_backtrace` are methods with their loops;
  `rebuild_entry` and `align_entry`, which have none, are functions. The module also holds specification functions for the
  rendered rows and column widths, lemmas on how aligned rows line up, and
  `backtrace_excepthook`'s output (header, rows, error line).
- `reparser.dfy` (module `Reparser`): `_extract_traceback`. Its two loops are methods proved
  equal to a declarative definition: first marker, end of capture, parity-selected pairs,
  all entries but the last two parsed. The `IndexError`s it can raise are modelled as
  results. Lemmas cover what the scan keeps and ignores, and a corrected extraction is
  included (see Findings).
- `stdinhook.dfy` (module `StdinHook`): the check `_stdin_hook` makes for the marker line,
  and the split of the last line into error type and value.
- `printed.dfy` (module `PrintedTraceback`): the text Python prints for a frame. Lemmas
  prove that the entry parser reads back every readable frame (no field holds a comma, and
  the fields have no stray blanks or newlines at their ends). They prove that the corrected
  extraction (see Findings) reads a whole printed traceback of readable frames back, and
  that the error line splits back into its type and value. For a call that holds a comma,
  a lemma shows what the code as written returns instead.
- `pybuiltins.dfy` (module `PyBuiltins`): the Python built-ins the core relies on, written
  out with their semantics. These are `str.strip`/`lstrip`/`rstrip` with a character set,
  `str.split(',')`, `str.split(': ', 1)`, `' '.join`, `'{0:{1}}'` padding, `str(int)`,
  `list.insert`, slicing off the last two elements and `os.path.basename`. Whitespace is
  Python 3's `str.isspace` on text strings. Errors are
  Python's `IndexError` and `ValueError`, carried in a `Result`.

Strings are sequences of characters. A frame's line number is an integer or, for entries
given as plain tuples, text. The colorama codes are their ANSI escape sequences, used only
as text.

## Model

| member | source | states |
|---|---|---|
| Styles.RolesAreDefaultKeys | backtrace.py:17-24 | the six roles the formatter looks up are exactly the keys of `STYLES` |
| Styles.BuiltInStyleSets | backtrace.py:17-33 | `STYLES` and `CONVERVATIVE_STYLES` both give a template to every role; the conservative set keeps the backtrace, error and call templates and replaces the line, module and context ones |
| Styles.MergeStyles | backtrace.py:146-153 | conservative mode yields the conservative set; otherwise every key the caller gave keeps its template, every missing role gets the default one, no other key appears, and the result always has all six roles (also for `None` or an empty dict, which give `STYLES`) |
| Formatter.Reversed | backtrace.py:53 | `[::-1]` has the same length and element `k` is element `len - 1 - k` of the input |
| Formatter.ReverseTwice | backtrace.py:53 | reversing twice gives the list back |
| Formatter.ReversedSameElements | backtrace.py:53 | reversing keeps exactly the same elements |
| Formatter.Hook.constructor | backtrace.py:42-50 | the hook keeps the entries and the align, strip and conservative flags it is given |
| Formatter.Hook.Reverse | backtrace.py:52-53 | the entry field becomes the reversed old entries |
| Formatter.Hook.RebuildEntry | backtrace.py:55-71 | four cells: line number (as `str`) and path (its basename under strip) styled with their templates plus RESET_ALL, swapped into File-first order in conservative mode; function name and call styled in cells 2 and 3 |
| Formatter.Hook.ConservativePythonWords | backtrace.py:26-33 | in conservative mode a rebuilt row begins `File <path>,`, `line <n>,`, `in <name>`, the words of Python's own frame line |
| Formatter.Hook.AlignAll | backtrace.py:73-80 | the loop computes, per column, the length of the longest cell (0 when no row has that column) |
| Formatter.ColumnWidthIsMax | backtrace.py:75-79 | that width bounds every cell of the column and is reached by some cell unless it is 0 |
| Formatter.ColumnWidthUnique | backtrace.py:75-79 | any bound reached by a cell (or 0 for an empty column) is the computed width, so the width is exactly the maximum |
| Formatter.LastColumnEnd | backtrace.py:84-86 | with single-space separators the last column ends at the sum of the widths plus one space per gap |
| Formatter.JoinedPartAt | backtrace.py:84 | `' '.join` holds each part at its start offset |
| Formatter.JoinedLength | backtrace.py:84 | the joined line ends right after its last part |
| Formatter.Hook.AlignEntry | backtrace.py:82-86 | `align_entry`: the cells padded to the column widths and joined by single spaces; what the line holds is stated by AlignEntryKeepsCells, AlignedRowLength and AlignedRowLayout |
| Formatter.PaddedStarts | backtrace.py:85 | after padding every cell to its column width, cell `i` starts at the sum of the earlier widths plus the gaps |
| Formatter.AlignEntryKeepsCells | backtrace.py:82-86 | every cell appears unchanged in the aligned line, at its start offset |
| Formatter.AlignedRowLength | backtrace.py:82-86 | an aligned row whose cells fit the widths is as long as the widths plus the gaps |
| Formatter.AlignedRowLayout | backtrace.py:82-86 | in such a row cell `i` starts at the same offset whatever the row, so rows line up column by column |
| Formatter.RowFitsColumnWidths | backtrace.py:73-80 | every cell of every four-cell row fits the width `align_all` computes |
| Formatter.AlignedRowsLineUp | backtrace.py:99-104 | with `align`, all rebuilt rows have the same length and each cell starts at its column's offset |
| Formatter.UnalignedRowsJoinCells | backtrace.py:100-104 | without `align` (widths all 1), each row is its rebuilt cells joined by single spaces |
| Formatter.Hook.GenerateBacktrace | backtrace.py:88-105 | the three loops yield the rendered rows: one per entry, in order, aligned to the computed widths or to width 1 |
| Formatter.Hook.AlignRows | backtrace.py:102-104 | the last loop aligns every rebuilt row with the same widths, in order |
| Formatter.RenderedRows | backtrace.py:95-105 | one rendered row per entry |
| Formatter.RebuiltReversed | backtrace.py:96-97 | rebuilding reversed entries gives the rebuilt rows reversed |
| Formatter.WidthsSameRows | backtrace.py:73-80 | two row lists with the same rows, in any order and any number of times, get the same column widths |
| Formatter.WidthsIgnoreOrder | backtrace.py:99-100 | reversing the rows leaves the column widths unchanged |
| Formatter.ReversedRendering | backtrace.py:172-176 | rendering the reversed entries gives the same rows in reverse order |
| Formatter.Heading | backtrace.py:168-169 | the header text names the order: `Most recent call first` when reversed, `last` otherwise; BacktraceExcepthook states where it goes |
| Formatter.ErrorText | backtrace.py:170 | the error text `tpe: value`; ErrorLineRoundTrip shows it splits back into the type and the value |
| Formatter.BacktraceExcepthook | backtrace.py:165-179 | the flushed lines: the styled header naming the order first; then, when reversed, the styled `tpe: value` line followed by the rows of the reversed frames, otherwise the rows followed by the error line |
| PyBuiltins.LeadingRun | backtrace.py:217-219 | the number of leading characters from the set: all of them are in it and the next is not |
| PyBuiltins.TrailingRun | backtrace.py:203-204 | the same from the right |
| PyBuiltins.LStrip | backtrace.py:217-219 | `lstrip(chars)` leaves a string that does not start with one of them |
| PyBuiltins.RStrip | backtrace.py:203-204 | `rstrip(chars)` leaves a string that does not end with one of them |
| PyBuiltins.Strip | backtrace.py:203-204 | `strip(chars)` leaves neither end in the set and leaves an already trimmed string unchanged |
| PyBuiltins.LStripSkipsPrefix | backtrace.py:217-219 | `lstrip` removes any prefix made only of its characters |
| PyBuiltins.RStripSkipsSuffix | backtrace.py:203-204 | `rstrip` removes any suffix made only of its characters |
| PyBuiltins.StripSurrounding | backtrace.py:203-219 | `strip` removes exactly the surrounding characters from the set around a trimmed middle |
| PyBuiltins.Split | backtrace.py:216 | `split(',')` gives one more part than there are commas, no part holds a comma, and joining with commas gives the string back |
| PyBuiltins.SplitWithoutSeparator | backtrace.py:216 | a string without the separator splits into itself |
| PyBuiltins.SplitAround | backtrace.py:216 | splitting at a separator splits the two sides independently |
| PyBuiltins.SplitFour | backtrace.py:216 | four comma-free parts joined by commas split back into the same four |
| PyBuiltins.Join | backtrace.py:84 | `sep.join(parts)`; Split states that joining the parts of a split gives the string back, and JoinedPartAt where each part sits |
| PyBuiltins.FindFrom | backtrace.py:234 | the first occurrence of a substring from an index on, or -1 when there is none |
| PyBuiltins.SplitOnce | backtrace.py:234 | `split(sep, 1)` gives two halves exactly when the separator occurs; the halves rejoined by it give the string, and the first half holds no occurrence |
| PyBuiltins.SplitOnceAtFirst | backtrace.py:234 | a string built as `a + sep + b`, where `a` cannot hold the separator, splits into `a` and `b` |
| PyBuiltins.DropLastTwo | backtrace.py:214 | `[:-2]` is the prefix without the last two elements, empty for two or fewer |
| PyBuiltins.Insert | backtrace.py:177 | `insert(i, x)` puts `x` at `i`, keeps the elements before it and shifts the rest up by one |
| PyBuiltins.Spaces | backtrace.py:85 | `n` spaces |
| PyBuiltins.PadRight | backtrace.py:85 | `'{0:{1}}'` keeps the string as a prefix and pads it with spaces up to the width, leaving longer strings alone |
| PyBuiltins.Basename | backtrace.py:58 | the path's last component: a suffix of the path with no `/`, preceded by `/` when shorter than the path |
| PyBuiltins.NatToDecimal | backtrace.py:60 | `str(n)` is a decimal numeral with no leading zero |
| PyBuiltins.IntToString | backtrace.py:60 | `str(n)` for any int: a minus sign before the numeral of a negative number; the numeral is stated by NatToDecimal and DecimalRoundTrip |
| PyBuiltins.DecimalRoundTrip | backtrace.py:60 | reading that numeral back gives the number |
| Reparser.IdentifierHasMarker | backtrace.py:16 | the marker line itself holds the marker |
| Reparser.HasMarker | backtrace.py:199 | the test `TRACEBACK_IDENTIFIER in line` is a substring test, built on PyBuiltins.Contains |
| PyBuiltins.Contains | backtrace.py:199 | `sub in s`: some index of `s` where `sub` occurs |
| PyBuiltins.StartsWith | backtrace.py:201 | `s.startswith(prefix)`; StartsWithTake states that such a string begins with exactly the prefix |
| Reparser.Indented | backtrace.py:201 | `line.startswith(' ')`: the line is non-empty and its first character is a space |
| Reparser.FindMarker | backtrace.py:198-200 | the first line from an index on that holds the marker, or the end when none does |
| Reparser.StopIndex | backtrace.py:201-208 | the first line from an index on that neither holds the marker nor starts with a space, or the end |
| Reparser.PairEntry | backtrace.py:203-205 | `line.strip().strip('\n') + ', ' + next_line.strip('\n')`; ParsePairedFrameLines states what it gives for a printed frame |
| Reparser.CleanField | backtrace.py:217-219 | a cleaned field has none of the trimmed characters at either end |
| Reparser.CleanFile | backtrace.py:217 | the path field ends up free of spaces and quotes at both ends |
| Reparser.CleanLine | backtrace.py:218 | the line field ends up free of whitespace at both ends |
| Reparser.CleanContext | backtrace.py:219 | the function field ends up free of whitespace at both ends |
| Reparser.CleanFields | backtrace.py:216-219 | the element keeps its length and every field from the fourth on unchanged |
| Reparser.CleanFieldsOfFour | backtrace.py:216-219 | the first three of four fields are cleaned as path, line and function, and the call is kept |
| Reparser.CleanFieldsPrefix | backtrace.py:216-219 | of any entry with three fields or more, the first three are cleaned as path, line and function and all the others are kept as split |
| Reparser.ParseEntry | backtrace.py:216-220 | one kept entry split at its commas and its first three fields cleaned, or IndexError; its properties are stated by ParseEntryShape |
| Reparser.ParseEntryShape | backtrace.py:216-220 | an entry parses exactly when it has at least two commas (otherwise IndexError); the tuple has one field per comma-separated part, the parts after the third are kept as split, and the first three are trimmed |
| Reparser.ParseEntriesEach | backtrace.py:214-220 | the parse loop succeeds exactly when every kept entry parses; it returns one tuple per entry, in order, and otherwise fails with IndexError |
| Reparser.ScanLines | backtrace.py:194-210 | the scan loop returns the declarative scan: the entries after the first marker and the lines before it, or IndexError when the last line would start a pair |
| Reparser.Scanned | backtrace.py:198-210 | the declarative scan that ScanLines is proved equal to: the lines before the first marker, and the pairs of even lines after it up to the stop line, or IndexError |
| Reparser.ScanStart | backtrace.py:194-196 | the scan starts outside a traceback with nothing collected |
| Reparser.ScanMarkerLine | backtrace.py:199-200 | a marker line starts or continues the capture and collects nothing |
| Reparser.ScanPairedLine | backtrace.py:201-205 | while capturing, an indented line at an even index is paired with the next line |
| Reparser.ScanOddLine | backtrace.py:201-202 | an indented line at an odd index is skipped |
| Reparser.ScanMissingNextLine | backtrace.py:204 | an indented line at an even index with no line after it raises IndexError |
| Reparser.ScanStopLine | backtrace.py:206-208 | the first other line while capturing is collected and ends the scan |
| Reparser.ScanOutsideLine | backtrace.py:209-210 | before the first marker every line passes through to the other output |
| Reparser.ScanEnd | backtrace.py:198 | running out of lines ends the scan with what was collected |
| Reparser.ParseKept | backtrace.py:212-220 | the parse loop returns the parse of every kept entry, or the first IndexError |
| Reparser.ParseEntriesStep | backtrace.py:214-220 | parsing from entry `i` on fails with that entry's error or prepends its tuple to the rest |
| Reparser.ExtractTraceback | backtrace.py:193-221 | `_extract_traceback` is the scan followed by parsing all entries but the last two, with the lines before the traceback passed through |
| Reparser.Extracted | backtrace.py:193-221 | the declarative `_extract_traceback` that ExtractTraceback is proved equal to: Scanned, `[:-2]`, then the parse |
| Reparser.NoMarkerPassesThrough | backtrace.py:198-210 | a text with no marker line gives no frames and passes every line through, and that is the only case that does |
| Reparser.FindMarkerAppend | backtrace.py:198-200 | lines appended after the first marker do not move it |
| Reparser.StopIndexAppend | backtrace.py:201-208 | lines appended after the end of the capture do not move it |
| Reparser.PairsAppend | backtrace.py:201-205 | lines appended after a range do not change the pairs inside it |
| Reparser.LinesAfterStopIgnored | backtrace.py:206-208 | once the capture has ended at a line, whatever follows never changes the extraction |
| Reparser.ScanStopsAtStop | backtrace.py:206-208 | the same for the scan alone |
| Reparser.PairsStep | backtrace.py:201-205 | one more line adds a pair exactly when it is indented, marker-free and of the pairing parity |
| Reparser.PairsTwoMore | backtrace.py:201-205 | a pair-starting line adds exactly its pair over the next two lines |
| Reparser.PairsEveryOther | backtrace.py:201-205 | when every other line from an index of the pairing parity is indented and marker-free, the pairs join each of them with the line under it |
| Reparser.PairsOfBlock | backtrace.py:201-205 | a block of 2n indented, marker-free lines, paired from its first line, gives n pairs, line 2i with line 2i+1 |
| Reparser.MarkerAfter | backtrace.py:198-200 | the first marker is the marker line that follows marker-free lines |
| Reparser.StopAfterBlock | backtrace.py:201-208 | a block of indented lines followed by a line that is neither indented nor a marker line ends the capture at that line |
| Reparser.ScannedUpTo | backtrace.py:198-210 | when the capture ends at a line, the scan collects the pairs after the marker and that line, and the lines before the marker |
| Reparser.AbsoluteParityShiftsPairs | backtrace.py:198-214 | with the marker first, a frame line and a call line, and an error line: the code pairs the call line with the error line, and dropping the last two entries leaves no frame |
| Reparser.ExtractedFramesUpTo | backtrace.py:198-221 | the corrected extraction parses the pairs counted from the line after the marker up to the end of the capture |
| Reparser.ExtractedFrames | backtrace.py:198-221 | the corrected extraction: pairs counted from the line after the marker, every pair kept; RecoveredFramesRoundTrip states its round trip |
| StdinHook.TracebackLineStartsCapture | backtrace.py:227 | input that passes the marker-line check always starts a capture |
| StdinHook.IndentedMarkerIsNotTracebackLine | backtrace.py:227 | the check wants the exact line: an indented marker starts a capture but fails the check |
| StdinHook.SplitErrorLine | backtrace.py:234 | the last line without newlines splits at its first `': '`, and ValueError when there is none; the type holds no `': '`, and `tpe + ': ' + value` gives the line back |
| PrintedTraceback.CleanWordField | backtrace.py:218-219 | ` word value` cleans to `value` |
| PrintedTraceback.WordFieldStripped | backtrace.py:218-219 | stripping such a field removes only its leading space |
| PrintedTraceback.WordSkipped | backtrace.py:218-219 | `lstrip` of the word's letters stops at the space after it |
| PrintedTraceback.CleanLineField | backtrace.py:218 | ` line N` cleans to `N` |
| PrintedTraceback.CleanContextField | backtrace.py:219 | ` in f` cleans to `f` |
| PrintedTraceback.CleanFileField | backtrace.py:217 | `File "path"`, with the space Python prints after `File`, cleans to the path |
| PrintedTraceback.FileWordSkipped | backtrace.py:217 | `lstrip('File')` of that field stops at the space before the quoted path |
| PrintedTraceback.FrameLineStripped | backtrace.py:203 | a printed frame line `  File "path", line N, in f` stripped of whitespace and then newlines is its text without the indentation and newline |
| PrintedTraceback.CallLineStripped | backtrace.py:204 | a printed call line stripped of newlines keeps its indentation |
| PrintedTraceback.PairedEntryText | backtrace.py:205 | the paired entry is its four fields joined by commas |
| PrintedTraceback.PairedEntryFields | backtrace.py:216 | that entry splits at its commas into the file, line, function and call fields |
| PrintedTraceback.CleanFrameFields | backtrace.py:216-219 | those fields clean up to the path, line number, function name and call |
| PrintedTraceback.ParsePairedFrameLines | backtrace.py:201-220 | for a frame whose path, line number, function name and call hold no comma, and whose fields have no blanks at their ends (nor newlines at the call's ends), a frame line as Python prints it, `  File "path", line N, in f`, paired with its call line parses into (path, line, function, five spaces + call): the `', '` joining the two lines and the call line's four-space indentation stay in the fourth field |
| PrintedTraceback.CommaInCallSplitsCall | backtrace.py:216-220 | as written, a call holding one comma, `a,b`, is cut there: the entry parses, without error, into (path, line, function, five spaces + a, b), five fields, of which `rebuild_entry` shows only the fourth |
| PrintedTraceback.CommaInCallEntry | backtrace.py:203-205 | the paired entry of a frame line and a call line is the frame text, `', '`, and the indented call |
| PyBuiltins.SplitFive | backtrace.py:216 | five comma-free parts joined by commas split back into the same five |
| PrintedTraceback.CommaInCallFields | backtrace.py:216 | that entry, with one comma in the call, splits into five fields |
| PrintedTraceback.CommaInCallCleaned | backtrace.py:217-219 | those five fields clean up to the path, line number, function name and the two halves of the call |
| PrintedTraceback.CommaInCallText | backtrace.py:205 | that entry is its first four fields joined by commas, a comma, and the rest of the call |
| PrintedTraceback.ErrorLineRoundTrip | backtrace.py:234 | an error line `tpe: value` (the type has no colon) splits back into the same type and value |
| PrintedTraceback.FramesText | backtrace.py:201-205 | the printed frames are two lines each, the frame line then the call line |
| PrintedTraceback.FramesTextIndented | backtrace.py:199-201 | every printed frame line is indented and holds no marker |
| PrintedTraceback.ParsedFrame | backtrace.py:216-220 | the two lines of a readable frame (no field holds a comma, the path has no spaces or quotes at its ends, the line number and function name are non-empty and trimmed, the call has no newline at its ends, and neither line holds the marker) parse into (path, line, function, five spaces + call) |
| PrintedTraceback.ParsedEach | backtrace.py:214-220 | when every frame is readable (no field holds a comma, …), every paired entry parses into its frame's (path, line, function, five spaces + call) |
| PrintedTraceback.ParsedFrames | backtrace.py:212-220 | when each entry parses into its frame's tuple (as for readable frames, no field holding a comma), the whole parse returns, in order, each frame's (path, line, function, five spaces + call) |
| PrintedTraceback.CapturedText | backtrace.py:198-208 | a printed traceback is captured from the line after the marker up to the error line, and what precedes it passes through |
| PrintedTraceback.CapturedBetween | backtrace.py:198-208 | the same for a text known only through its parts |
| PrintedTraceback.CapturedPairs | backtrace.py:201-205 | counted from the line after the marker, the pairs are the frame line and call line of each frame |
| PrintedTraceback.RecoveredFramesRoundTrip | backtrace.py:193-221 | when the lines before hold no marker, every frame is a readable frame (no field holds a comma, the path has no spaces or quotes at its ends, the line number and function name are non-empty and trimmed, the call has no newline at its ends, and neither line holds the marker), and the error line is neither indented nor a marker line, the corrected extraction reads the printed traceback back into one (path, line, function, five spaces + call) per frame, in order, and the lines before it |
| PrintedTraceback.AbsoluteParityLosesFrame | backtrace.py:198-214 | a printed one-frame traceback at the top of the input gives no frame as the code is written, and its frame with the corrected extraction |

## Left out

- Installing the hook (`sys.excepthook = …`) and `unhook`: these are assignments to interpreter state.
- The `if tb:` test at the end of `hook` (backtrace.py:181-184), which calls the excepthook at once when frames are given and otherwise installs it: the model starts from the excepthook's output. An empty frame list is falsy, so when `_stdin_hook` passes the empty list `_extract_traceback` returns for the input under Findings, no traceback is printed and the hook is only installed.
- The `enable_on_envvar_only` and `on_tty` gates and `colorama.init`: these read the environment and the terminal.
- `_flush` and every write to stdout and stderr: `BacktraceExcepthook` returns the flushed lines in order instead.
- `traceback.extract_tb`, and the fallback to a plain entry list on AttributeError: the model takes the entries as given. A `tpe` given as a class becomes its name; the model takes the name, and `value` after `str`.
- Reading standard input, the "No Traceback detected" exit, the call from `_stdin_hook` into `hook`, and argument parsing: these are I/O and process control. The check and the error-line split are modelled.
- `__main__.py`, `setup.py` and the test scripts: these are packaging and examples.
- The code raises no `ConfigurationError` or `MalformedTraceError`; the IndexError and ValueError it does raise are modelled.
- In conservative mode the code keeps `align` as given (`align or False`), and the model follows the code: conservative output is aligned when asked.
- Styles.MergeStyles: does not model that the code fills in the caller's own dict in place, so the caller sees the completed dict afterwards; the model returns the completed set as a new value. A style set is a map from the six roles to templates with exactly one `{0}`, so a caller's extra keys (which the code keeps, backtrace.py:150-151) and templates with no field, several fields or other format specifications are not modelled.
- Formatter.Hook.RebuildEntry: does not model entries of other lengths than four. A shorter tuple raises IndexError in the code, and a longer one is cut to four.
- Reparser.ParseEntryShape: a line with exactly two commas parses into three fields, as in the code. The IndexError it would cause later, in the formatter, is not modelled.
- Formatter.Hook.GenerateBacktrace: `str(field)` in `align_all` is the identity on the model's cells, which are already strings.
- PyBuiltins.Basename: models POSIX `os.path.basename`, which cuts at `/` only. On Windows (which the code also targets, backtrace.py:155) `ntpath.basename` also cuts at `\` and after a drive letter; that variant is not modelled.
- A path or call that holds a comma: `split(',')` at backtrace.py:216 cuts the whole entry, so such a frame gives extra fields, and the call is re-rendered cut at its first comma (`rebuild_entry` shows only `entry[3]`, backtrace.py:66). `CommaInCallSplitsCall` states this for a call with one comma; the round-trip lemmas are stated only for frames without commas, and a comma in the path (which shifts every later field) has no lemma.
- Python 2.7, which the package also lists (setup.py:30): there `strip()` on the byte string read from standard input trims only ASCII whitespace, so the characters U+001C to U+001F and U+0085 would be kept. The model uses Python 3's `str.isspace`.
- Text handling is character-level: no Unicode normalisation, encoding or terminal width.

## Findings

| source | as written | input that shows it | evidently intended | confidence | as-written member | corrected member |
|---|---|---|---|---|---|---|
| backtrace.py:198-214 | pairs start at lines with an even absolute index (line 202), and all but the last two entries are kept (line 214) | a piped traceback starting at the first line: the marker line, a frame line, its call line, an error line | each frame line after the marker is paired with the call line under it, and every pair becomes a frame, so the one-frame traceback gives its frame | medium, not executed | Reparser.AbsoluteParityShiftsPairs, PrintedTraceback.AbsoluteParityLosesFrame | Reparser.ExtractedFrames, PrintedTraceback.RecoveredFramesRoundTrip |

In the as-written input the code pairs the call line with the error line. The only entries are that pair and the error line, and `[:-2]` removes both, so no frame remains. When the marker sits at an odd index, the pairs line up, but `[:-2]` still drops the last frame together with the error line. `ExtractTraceback` and `Extracted` model the code as written. `ExtractedFrames` counts pairs from the line after the marker and keeps them all, and `RecoveredFramesRoundTrip` proves it reads every printed frame back when no field of any frame holds a comma and the fields have no stray blanks at their ends. Because the as-written result for that input is the empty list, which is falsy, `hook` (backtrace.py:181-184) then installs the excepthook instead of calling it, and `_stdin_hook` prints no traceback at all.

=== FILE: formatter.dfy ===
/** The entry formatter of backtrace.py: class `_Hook` turns frame tuples into styled,
    optionally aligned rows, and the excepthook that `hook` builds puts a header line
    before them and the error line at one end. */
module Formatter {
  import opened PyBuiltins
  import opened Styles

  /** The line number of a frame: an int when it comes from the interpreter's traceback,
      text when it was read back from printed output. */
  datatype LineNo = Number(n: int) | Text(s: string)

  /** One traceback entry: (file path, line number, function name, source of the call). */
  datatype Frame = Frame(location: string, line: LineNo, context: string, call: string)

  /** `str(entry[1])`. */
  function LineText(line: LineNo): string
  {
    match line
    case Number(n) => IntToString(n)
    case Text(s) => s
  }

  /** A field in its role's template, followed by RESET_ALL. */
  function Styled(template: Template, field: string): string
  {
    template.Format(field) + ResetAll
  }

  /** The path shown for a frame: its last component under `strip_path`. */
  function ShownPath(path: string, strip: bool): string
  {
    if strip then Basename(path) else path
  }

  /** `s[::-1]`. */
  function Reversed<T>(s: seq<T>): (r: seq<T>)
    ensures |r| == |s|
    ensures forall k | 0 <= k < |s| :: r[k] == s[|s| - 1 - k]
  {
    if s == [] then [] else Reversed(s[1..]) + [s[0]]
  }

  /** Reversing twice gives back the original order. */
  lemma ReverseTwice<T>(s: seq<T>)
    ensures Reversed(Reversed(s)) == s
  {
  }

  /** A reversed sequence holds the same elements. */
  lemma ReversedSameElements<T>(s: seq<T>)
    ensures forall x :: x in Reversed(s) <==> x in s
  {
    var r := Reversed(s);
    forall x | x in s ensures x in r {
      var k :| 0 <= k < |s| && s[k] == x;
      assert r[|s| - 1 - k] == x;
    }
  }

  // ---------------------------------------------------------------------------
  // Column widths

  /** The widest cell of column `i` over all rows, 0 when no row reaches that column. */
  function ColumnWidth(rows: seq<seq<string>>, i: nat): nat
  {
    if rows == [] then 0
    else
      var w := ColumnWidth(rows[..|rows| - 1], i);
      var last := rows[|rows| - 1];
      if i < |last| && w < |last[i]| then |last[i]| else w
  }

  /** The width of a column is its maximum: every cell of the column fits in it, and
      unless it is 0 some cell is exactly that wide. */
  lemma {:induction false} ColumnWidthIsMax(rows: seq<seq<string>>, i: nat)
    ensures forall r | r in rows && i < |r| :: |r[i]| <= ColumnWidth(rows, i)
    ensures ColumnWidth(rows, i) == 0 || exists r | r in rows && i < |r| :: |r[i]| == ColumnWidth(rows, i)
  {
    if rows != [] {
      var front := rows[..|rows| - 1];
      var last := rows[|rows| - 1];
      assert rows == front + [last];
      ColumnWidthIsMax(front, i);
      if ColumnWidth(rows, i) != 0 && ColumnWidth(rows, i) == ColumnWidth(front, i) {
        var r :| r in front && i < |r| && |r[i]| == ColumnWidth(front, i);
        assert r in rows;
      }
    }
  }

  /** The widths `align_all` computes for rows of four cells. */
  function ColumnWidths(rows: seq<seq<string>>): seq<nat>
  {
    [ColumnWidth(rows, 0), ColumnWidth(rows, 1), ColumnWidth(rows, 2), ColumnWidth(rows, 3)]
  }

  /** Any width that bounds the column and is reached by one of its cells (or is 0) is
      the column's width, so the width does not depend on the order of the rows. */
  lemma ColumnWidthUnique(rows: seq<seq<string>>, i: nat, w: nat)
    requires forall r | r in rows && i < |r| :: |r[i]| <= w
    requires w == 0 || exists r | r in rows && i < |r| :: |r[i]| == w
    ensures ColumnWidth(rows, i) == w
  {
    ColumnWidthIsMax(rows, i);
  }

  /** The sum of the column widths. */
  function Sum(ws: seq<nat>): nat
  {
    if ws == [] then 0 else ws[0] + Sum(ws[1..])
  }

  /** Where column `i` begins in a row laid out with widths `ws`: the widths of the
      columns before it, plus one separating space after each. */
  function Offset(ws: seq<nat>, i: nat): nat
    requires i <= |ws|
  {
    if i == 0 then 0 else ws[0] + 1 + Offset(ws[1..], i - 1)
  }

  /** The last column ends at the sum of the widths plus one space between each pair. */
  lemma {:induction false} LastColumnEnd(ws: seq<nat>)
    requires |ws| > 0
    ensures Offset(ws, |ws| - 1) + ws[|ws| - 1] == Sum(ws) + |ws| - 1
  {
    if |ws| > 1 {
      LastColumnEnd(ws[1..]);
    }
  }

  // ---------------------------------------------------------------------------
  // Row layout

  /** Where part `i` begins in `' '.join(parts)`. */
  function PartStart(parts: seq<string>, i: nat): nat
    requires i <= |parts|
  {
    if i == 0 then 0 else |parts[0]| + 1 + PartStart(parts[1..], i - 1)
  }

  /** `' '.join(parts)` holds part `i` at `PartStart(parts, i)`. */
  lemma {:induction false} JoinedPartAt(parts: seq<string>, i: nat)
    requires i < |parts|
    ensures PartStart(parts, i) + |parts[i]| <= |Join(" ", parts)|
    ensures Join(" ", parts)[PartStart(parts, i)..PartStart(parts, i) + |parts[i]|] == parts[i]
  {
    var line := Join(" ", parts);
    if |parts| > 1 {
      var rest := Join(" ", parts[1..]);
      assert line == parts[0] + " " + rest;
      if i > 0 {
        JoinedPartAt(parts[1..], i - 1);
        var a := PartStart(parts[1..], i - 1);
        var shift := |parts[0]| + 1;
        assert line[shift..] == rest;
        assert line[shift + a..shift + a + |parts[i]|] == line[shift..][a..a + |parts[i]|];
      }
    }
  }

  /** `' '.join(parts)` ends where its last part ends. */
  lemma {:induction false} JoinedLength(parts: seq<string>)
    requires |parts| > 0
    ensures |Join(" ", parts)| == PartStart(parts, |parts| - 1) + |parts[|parts| - 1]|
  {
    if |parts| > 1 {
      JoinedLength(parts[1..]);
    }
  }

  /** The cells of a row, each padded to its column's width. */
  function Padded(row: seq<string>, lengths: seq<nat>): (cells: seq<string>)
    requires |row| <= |lengths|
  {
    seq(|row|, i requires 0 <= i < |row| => PadRight(row[i], lengths[i]))
  }

  /** When every cell fits its width, each padded cell is exactly as wide as its column,
      so cell `i` starts at `Offset(lengths, i)` whatever the row. */
  lemma {:induction false} PaddedStarts(row: seq<string>, lengths: seq<nat>, i: nat)
    requires |row| <= |lengths| && i <= |row|
    requires forall j | 0 <= j < |row| :: |row[j]| <= lengths[j]
    ensures PartStart(Padded(row, lengths), i) == Offset(lengths, i)
  {
    if i > 0 {
      assert Padded(row, lengths)[1..] == Padded(row[1..], lengths[1..]);
      PaddedStarts(row[1..], lengths[1..], i - 1);
    }
  }

  // ---------------------------------------------------------------------------
  // class _Hook

  class Hook {
    var entries: seq<Frame>
    const align: bool
    const strip: bool
    const conservative: bool

    constructor (entries: seq<Frame>, align: bool, strip: bool, conservative: bool)
      ensures this.entries == entries
      ensures this.align == align && this.strip == strip && this.conservative == conservative
    {
      this.entries := entries;
      this.align := align;
      this.strip := strip;
      this.conservative := conservative;
    }

    /** `reverse`: the entries are replaced by the same entries in the opposite order. */
    method Reverse()
      modifies this
      ensures entries == Reversed(old(entries))
    {
      entries := Reversed(entries);
    }

    /** `rebuild_entry`: four cells, in the order (line, file, function, call), each the
      field in its role's template followed by RESET_ALL; the path is cut to its last
      component under `strip`, and conservative mode puts the file before the line. */
    static function RebuildEntry(entry: Frame, strip: bool, conservative: bool, styles: StyleSet): (cells: seq<string>)
      requires Complete(styles)
      ensures |cells| == 4
      ensures cells[if conservative then 1 else 0] == Styled(styles[Line], LineText(entry.line))
      ensures cells[if conservative then 0 else 1] == Styled(styles[Module], ShownPath(entry.location, strip))
      ensures cells[2] == Styled(styles[Context], entry.context)
      ensures cells[3] == Styled(styles[Call], entry.call)
    {
      var line := Styled(styles[Line], LineText(entry.line));
      var location := Styled(styles[Module], ShownPath(entry.location, strip));
      var context := Styled(styles[Context], entry.context);
      var call := Styled(styles[Call], entry.call);
      if conservative then [location, line, context, call] else [line, location, context, call]
    }

    /** In conservative mode a rebuilt row carries the words of Python's own frame line:
      the file cell comes first as `File <path>,`, then `line <n>,` with the number
      coloured, then `in <name>`. */
    static lemma ConservativePythonWords(entry: Frame, strip: bool)
      ensures Complete(ConservativeStyles)
      ensures RebuildEntry(entry, strip, true, ConservativeStyles)[..3] == [
        "File " + ShownPath(entry.location, strip) + "," + ResetAll,
        "line " + Red + Bright + LineText(entry.line) + "," + ResetAll,
        "in " + Bright + Green + entry.context + ResetAll]
    {
      BuiltInStyleSets();
      var cells := RebuildEntry(entry, strip, true, ConservativeStyles);
      var context := "in " + Bright + Green + entry.context;
      assert cells[2] == context + "" + ResetAll;
      assert context + "" == context;
    }

    /** `align_all`: the width of each of the four columns, the longest cell found in it. */
    static method AlignAll(rows: seq<seq<string>>) returns (lengths: seq<nat>)
      requires forall r | r in rows :: |r| <= 4
      ensures lengths == ColumnWidths(rows)
    {
      lengths := [0, 0, 0, 0];
      for k := 0 to |rows|
        invariant |lengths| == 4
        invariant forall i | 0 <= i < 4 :: lengths[i] == ColumnWidth(rows[..k], i)
      {
        var entry := rows[k];
        assert rows[..k + 1][..k] == rows[..k];
        for index := 0 to |entry|
          invariant |lengths| == 4
          invariant forall i | 0 <= i < index :: lengths[i] == ColumnWidth(rows[..k + 1], i)
          invariant forall i | index <= i < 4 :: lengths[i] == ColumnWidth(rows[..k], i)
        {
          var field := entry[index];
          lengths := lengths[index := if lengths[index] < |field| then |field| else lengths[index]];
        }
      }
      assert rows[..|rows|] == rows;
    }

    /** `align_entry`: each cell padded on the right to its column's width, the cells
      joined with single spaces. */
    static function AlignEntry(row: seq<string>, lengths: seq<nat>): string
      requires |row| <= |lengths|
    {
      Join(" ", Padded(row, lengths))
    }

    /** `generate_backtrace`: one rendered row per entry, in the order of `entries`. */
    method GenerateBacktrace(styles: StyleSet) returns (alignedBacktrace: seq<string>)
      requires Complete(styles)
      ensures alignedBacktrace == RenderedRows(entries, align, strip, conservative, styles)
    {
      var backtrace: seq<seq<string>> := [];
      for i := 0 to |entries|
        invariant |backtrace| == i
        invariant forall j | 0 <= j < i :: backtrace[j] == RebuildEntry(entries[j], strip, conservative, styles)
      {
        backtrace := backtrace + [RebuildEntry(entries[i], strip, conservative, styles)];
      }
      assert backtrace == Rebuilt(entries, strip, conservative, styles);

      var lengths: seq<nat>;
      if align {
        lengths := AlignAll(backtrace);
      } else {
        lengths := [1, 1, 1, 1];
      }
      alignedBacktrace := AlignRows(backtrace, lengths);
    }

    /** The last loop of `generate_backtrace`: every row aligned with the same widths. */
    static method AlignRows(backtrace: seq<seq<string>>, lengths: seq<nat>) returns (alignedBacktrace: seq<string>)
      requires forall r | r in backtrace :: |r| <= |lengths|
      ensures alignedBacktrace == seq(|backtrace|, i requires 0 <= i < |backtrace| => AlignEntry(backtrace[i], lengths))
    {
      alignedBacktrace := [];
      for i := 0 to |backtrace|
        invariant |alignedBacktrace| == i
        invariant forall j | 0 <= j < i :: alignedBacktrace[j] == AlignEntry(backtrace[j], lengths)
      {
        alignedBacktrace := alignedBacktrace + [AlignEntry(backtrace[i], lengths)];
      }
    }
  }

  // ---------------------------------------------------------------------------
  // What generate_backtrace produces

  /** The cells of every entry. */
  function Rebuilt(entries: seq<Frame>, strip: bool, conservative: bool, styles: StyleSet): seq<seq<string>>
    requires Complete(styles)
  {
    seq(|entries|, i requires 0 <= i < |entries| => Hook.RebuildEntry(entries[i], strip, conservative, styles))
  }

  /** The column widths in use: measured when aligning, otherwise 1 for every column. */
  function Widths(rows: seq<seq<string>>, align: bool): seq<nat>
  {
    if align then ColumnWidths(rows) else [1, 1, 1, 1]
  }

  /** The rows `generate_backtrace` returns for these entries and options. */
  function RenderedRows(entries: seq<Frame>, align: bool, strip: bool, conservative: bool, styles: StyleSet): (rows: seq<string>)
    requires Complete(styles)
    ensures |rows| == |entries|
  {
    var rows := Rebuilt(entries, strip, conservative, styles);
    var widths := Widths(rows, align);
    seq(|rows|, i requires 0 <= i < |rows| => Hook.AlignEntry(rows[i], widths))
  }

  /** Padding never cuts a cell: whatever the widths, every cell appears whole in its row,
      at the place where the padded cells before it and their separators end. */
  lemma AlignEntryKeepsCells(row: seq<string>, lengths: seq<nat>, i: nat)
    requires |row| <= |lengths| && i < |row|
    ensures var line := Hook.AlignEntry(row, lengths);
      var at := PartStart(Padded(row, lengths), i);
      at + |row[i]| <= |line| && line[at..at + |row[i]|] == row[i]
  {
    var cells := Padded(row, lengths);
    JoinedPartAt(cells, i);
    var at := PartStart(cells, i);
    var line := Hook.AlignEntry(row, lengths);
    assert line[at..at + |cells[i]|][..|row[i]|] == cells[i][..|row[i]|];
  }

  /** With widths that every cell fits, a row is as long as the widths plus the
      separators. */
  lemma AlignedRowLength(row: seq<string>, lengths: seq<nat>)
    requires |row| == |lengths| > 0
    requires forall j | 0 <= j < |row| :: |row[j]| <= lengths[j]
    ensures |Hook.AlignEntry(row, lengths)| == Sum(lengths) + |row| - 1
  {
    var cells := Padded(row, lengths);
    var last := |row| - 1;
    JoinedLength(cells);
    PaddedStarts(row, lengths, last);
    assert |cells[last]| == lengths[last];
    LastColumnEnd(lengths);
  }

  /** With widths that every cell fits, cell `i` of a row starts at `Offset(lengths, i)`
      and the row is as long as the widths plus the separators. */
  lemma AlignedRowLayout(row: seq<string>, lengths: seq<nat>, i: nat)
    requires |row| == |lengths| && i < |row|
    requires forall j | 0 <= j < |row| :: |row[j]| <= lengths[j]
    ensures var line := Hook.AlignEntry(row, lengths);
      |line| == Sum(lengths) + |row| - 1
      && Offset(lengths, i) + |row[i]| <= |line|
      && line[Offset(lengths, i)..Offset(lengths, i) + |row[i]|] == row[i]
  {
    AlignedRowLength(row, lengths);
    AlignEntryKeepsCells(row, lengths, i);
    PaddedStarts(row, lengths, i);
  }

  /** Each cell of a row fits the width of its column. */
  lemma RowFitsColumnWidths(rows: seq<seq<string>>, k: nat)
    requires k < |rows| && |rows[k]| == 4
    ensures forall j | 0 <= j < 4 :: |rows[k][j]| <= ColumnWidths(rows)[j]
  {
    assert rows[k] in rows;
    forall j | 0 <= j < 4 ensures |rows[k][j]| <= ColumnWidth(rows, j) {
      ColumnWidthIsMax(rows, j);
    }
  }

  /** With the widths `align_all` measures, the rows line up: every row of four cells is
      `sum(widths) + 3` characters long, and cell `i` of every row starts at the same
      offset, `Offset(widths, i)`. */
  lemma AlignedRowsLineUp(rows: seq<seq<string>>, k: nat, i: nat)
    requires k < |rows| && |rows[k]| == 4 && i < 4
    ensures var widths := ColumnWidths(rows);
      var line := Hook.AlignEntry(rows[k], widths);
      |line| == Sum(widths) + 3
      && Offset(widths, i) + |rows[k][i]| <= |line|
      && line[Offset(widths, i)..Offset(widths, i) + |rows[k][i]|] == rows[k][i]
  {
    RowFitsColumnWidths(rows, k);
    AlignedRowLayout(rows[k], ColumnWidths(rows), i);
  }

  /** Without `align` every width is 1, which no cell is shorter than (each ends with
      RESET_ALL), so a row is its cells joined by single spaces, unpadded. */
  lemma UnalignedRowsJoinCells(entries: seq<Frame>, strip: bool, conservative: bool, styles: StyleSet, k: nat)
    requires Complete(styles) && k < |entries|
    ensures RenderedRows(entries, false, strip, conservative, styles)[k]
      == Join(" ", Hook.RebuildEntry(entries[k], strip, conservative, styles))
  {
    var cells := Hook.RebuildEntry(entries[k], strip, conservative, styles);
    assert forall j | 0 <= j < 4 :: |cells[j]| >= |ResetAll| == 4;
    assert Padded(cells, [1, 1, 1, 1]) == cells;
  }

  /** Rebuilding reversed entries gives the rebuilt entries reversed. */
  lemma RebuiltReversed(entries: seq<Frame>, strip: bool, conservative: bool, styles: StyleSet)
    requires Complete(styles)
    ensures Rebuilt(Reversed(entries), strip, conservative, styles) == Reversed(Rebuilt(entries, strip, conservative, styles))
  {
    var a := Rebuilt(Reversed(entries), strip, conservative, styles);
    var b := Reversed(Rebuilt(entries, strip, conservative, styles));
    forall k | 0 <= k < |a| ensures a[k] == b[k] {
      assert Reversed(entries)[k] == entries[|entries| - 1 - k];
    }
  }

  /** The column widths depend only on which rows there are: neither their order nor how
      often a row repeats changes them. */
  lemma WidthsSameRows(rows: seq<seq<string>>, other: seq<seq<string>>, align: bool)
    requires forall r :: r in other <==> r in rows
    ensures Widths(other, align) == Widths(rows, align)
  {
    forall i | 0 <= i < 4 ensures ColumnWidth(other, i) == ColumnWidth(rows, i) {
      ColumnWidthIsMax(rows, i);
      ColumnWidthUnique(other, i, ColumnWidth(rows, i));
    }
  }

  /** Reversing the rows leaves the column widths unchanged. */
  lemma WidthsIgnoreOrder(rows: seq<seq<string>>, align: bool)
    ensures Widths(Reversed(rows), align) == Widths(rows, align)
  {
    ReversedSameElements(rows);
    WidthsSameRows(rows, Reversed(rows), align);
  }

  /** Rendering the entries in reverse order gives the same rows in reverse order. */
  lemma ReversedRendering(entries: seq<Frame>, align: bool, strip: bool, conservative: bool, styles: StyleSet)
    requires Complete(styles)
    ensures RenderedRows(Reversed(entries), align, strip, conservative, styles)
      == Reversed(RenderedRows(entries, align, strip, conservative, styles))
  {
    var rows := Rebuilt(entries, strip, conservative, styles);
    RebuiltReversed(entries, strip, conservative, styles);
    WidthsIgnoreOrder(rows, align);
    var widths := Widths(rows, align);
    var a := RenderedRows(Reversed(entries), align, strip, conservative, styles);
    var b := Reversed(RenderedRows(entries, align, strip, conservative, styles));
    forall k | 0 <= k < |a| ensures a[k] == b[k] {
      assert a[k] == Hook.AlignEntry(Reversed(rows)[k], widths);
    }
  }

  // ---------------------------------------------------------------------------
  // The excepthook

  /** The header text, `'Traceback ({0}):'` filled with `'Most recent call '` and
      `'first'` or `'last'`. */
  function Heading(reverse: bool): string
  {
    if reverse then "Traceback (Most recent call first):" else "Traceback (Most recent call last):"
  }

  /** The text of the error line, `tpe + ': ' + str(value)`. */
  function ErrorText(tpe: string, value: string): string
  {
    tpe + ": " + value
  }

  /** `backtrace_excepthook`: the lines it flushes, in order. The header comes first and
      names the order of the frames; then one row per frame; the error line
      `tpe: value` comes right after the header when reversed and last otherwise. */
  method BacktraceExcepthook(frames: seq<Frame>, tpe: string, value: string, reverse: bool, align: bool,
                             strip: bool, conservative: bool, styles: StyleSet) returns (lines: seq<string>)
    requires Complete(styles)
    ensures lines == [styles[Backtrace].Format(Heading(reverse))]
      + (if reverse
         then [styles[Error].Format(ErrorText(tpe, value))] + RenderedRows(Reversed(frames), align, strip, conservative, styles)
         else RenderedRows(frames, align, strip, conservative, styles) + [styles[Error].Format(ErrorText(tpe, value))])
  {
    var parser := new Hook(frames, align, strip, conservative);
    var tbMessage := styles[Backtrace].Format(Heading(reverse));
    var errMessage := styles[Error].Format(ErrorText(tpe, value));
    if reverse {
      parser.Reverse();
    }
    var backtrace := parser.GenerateBacktrace(styles);
    ghost var rows := backtrace;
    backtrace := Insert(backtrace, if reverse then 0 else |backtrace|, errMessage);
    if reverse {
      assert backtrace == [errMessage] + rows;
    } else {
      assert backtrace == rows + [errMessage];
    }
    lines := [tbMessage] + backtrace;
  }
}

=== FILE: printed.dfy ===
/** The text Python itself prints for a traceback, and what backtrace.py makes of it when
    it reads that text back from standard input. */
module PrintedTraceback {
  import opened PyBuiltins
  import opened Formatter
  import opened Reparser
  import opened StdinHook

  /** The line Python prints for a frame: `  File "<path>", line <n>, in <name>`. */
  function FrameLine(path: string, lineNo: string, context: string): string
  {
    "  " + FrameText(path, lineNo, context) + "\n"
  }

  /** The frame line without its indentation and newline. */
  function FrameText(path: string, lineNo: string, context: string): string
  {
    FileField(path) + ("," + LineField(lineNo)) + ("," + ContextField(context))
  }

  /** ` line <n>`. */
  function LineField(lineNo: string): string
  {
    " line " + lineNo
  }

  /** ` in <name>`. */
  function ContextField(context: string): string
  {
    " in " + context
  }

  /** `File "<path>"`. */
  function FileField(path: string): string
  {
    "File " + Quoted(path)
  }

  /** `"<path>"`. */
  function Quoted(path: string): string
  {
    "\"" + path + "\""
  }

  /** The line Python prints under a frame line: the source of the call, indented by four
      spaces. */
  function CallLine(call: string): string
  {
    "    " + call + "\n"
  }

  /** A field that is a space, a word, a space and a value cleans up to the value. */
  lemma CleanWordField(word: string, value: string, letters: set<char>)
    requires word != [] && AllIn(word, letters) && ' ' !in letters
    requires word[0] !in Whitespace
    requires value != [] && Trimmed(value, Whitespace)
    ensures CleanField(" " + word + " " + value, letters, Whitespace) == value
  {
    WordFieldStripped(word, value);
    WordSkipped(word, value, letters);
    StripLeading(" ", value, Whitespace);
  }

  /** Stripping a word field of whitespace removes its leading space. */
  lemma WordFieldStripped(word: string, value: string)
    requires word != [] && word[0] !in Whitespace
    requires value != [] && Trimmed(value, Whitespace)
    ensures Strip(" " + word + " " + value, Whitespace) == word + " " + value
  {
    assert " " + word + " " + value == " " + (word + " " + value);
    StripLeading(" ", word + " " + value, Whitespace);
  }

  /** Stripping the letters of the word from the left stops at the space after it. */
  lemma WordSkipped(word: string, value: string, letters: set<char>)
    requires AllIn(word, letters) && ' ' !in letters
    ensures LStrip(word + " " + value, letters) == " " + value
  {
    assert word + " " + value == word + (" " + value);
    LStripSkipsPrefix(word, " " + value, letters);
    assert LeadingRun(" " + value, letters) == 0;
  }

  /** The line field cleans up to the line number. */
  lemma CleanLineField(lineNo: string)
    requires lineNo != [] && Trimmed(lineNo, Whitespace)
    ensures CleanLine(LineField(lineNo)) == lineNo
  {
    assert LineField(lineNo) == " " + "line" + " " + lineNo;
    CleanWordField("line", lineNo, {'l', 'i', 'n', 'e'});
  }

  /** The function field cleans up to the function name. */
  lemma CleanContextField(context: string)
    requires context != [] && Trimmed(context, Whitespace)
    ensures CleanContext(ContextField(context)) == context
  {
    assert ContextField(context) == " " + "in" + " " + context;
    CleanWordField("in", context, {'i', 'n'});
  }

  /** The file field cleans up to the path. */
  lemma CleanFileField(path: string)
    requires Trimmed(path, {' ', '"'})
    ensures CleanFile(FileField(path)) == path
  {
    assert Trimmed(FileField(path), Whitespace);
    FileWordSkipped(path);
    assert " " + Quoted(path) == " \"" + path + "\"";
    StripSurrounding(" \"", path, "\"", {' ', '"'});
  }

  /** Stripping the letters of `File` from the left stops at the space before the quoted
      path. */
  lemma FileWordSkipped(path: string)
    ensures LStrip(FileField(path), {'F', 'i', 'l', 'e'}) == " " + Quoted(path)
  {
    var rest := " " + Quoted(path);
    assert FileField(path) == "File" + rest;
    LStripSkipsPrefix("File", rest, {'F', 'i', 'l', 'e'});
    assert LeadingRun(rest, {'F', 'i', 'l', 'e'}) == 0;
  }

  /** The frame line stripped of whitespace and then of newlines is its text. */
  lemma FrameLineStripped(path: string, lineNo: string, context: string)
    requires context != [] && Trimmed(context, Whitespace)
    ensures Strip(Strip(FrameLine(path, lineNo, context), Whitespace), {'\n'}) == FrameText(path, lineNo, context)
  {
    var t := FrameText(path, lineNo, context);
    assert t[|t| - 1] == context[|context| - 1];
    StripSurrounding("  ", t, "\n", Whitespace);
  }

  /** The call line stripped of newlines keeps its indentation. */
  lemma CallLineStripped(call: string)
    requires Trimmed(call, {'\n'})
    ensures Strip(CallLine(call), {'\n'}) == "    " + call
  {
    assert CallLine(call) == "" + ("    " + call) + "\n";
    StripSurrounding("", "    " + call, "\n", {'\n'});
  }

  /** The entry made from a frame line and its call line, cut at its commas. */
  lemma PairedEntryFields(path: string, lineNo: string, context: string, call: string)
    requires ',' !in path && ',' !in lineNo && ',' !in context && ',' !in call
    ensures Split(FrameText(path, lineNo, context) + ", " + ("    " + call), ',')
         == [FileField(path), LineField(lineNo), ContextField(context), "     " + call]
  {
    PairedEntryText(path, lineNo, context, call);
    SplitFour(FileField(path), LineField(lineNo), ContextField(context), "     " + call, ',');
  }

  /** The entry made from a frame line and its call line is its four fields joined by
      commas. */
  lemma PairedEntryText(path: string, lineNo: string, context: string, call: string)
    ensures FrameText(path, lineNo, context) + ", " + ("    " + call)
         == FileField(path) + ("," + LineField(lineNo)) + ("," + ContextField(context)) + ("," + ("     " + call))
  {
    assert ", " + ("    " + call) == "," + ("     " + call);
  }

  /** The fields cut from a frame line clean up to the path, the line number and the
      function name; the call field is kept as it is. */
  lemma CleanFrameFields(path: string, lineNo: string, context: string, call: string)
    requires Trimmed(path, {' ', '"'})
    requires lineNo != [] && Trimmed(lineNo, Whitespace)
    requires context != [] && Trimmed(context, Whitespace)
    ensures CleanFields([FileField(path), LineField(lineNo), ContextField(context), call])
         == [path, lineNo, context, call]
  {
    CleanFieldsOfFour(FileField(path), LineField(lineNo), ContextField(context), call);
    CleanFileField(path);
    CleanLineField(lineNo);
    CleanContextField(context);
  }

  /** The entry made from a frame line and the call line under it parses back into the
      path, the line number, the function name and the call (which keeps a leading space
      and its four-space indentation), when none of them holds a comma and the fields
      have no surrounding blanks. */
  lemma ParsePairedFrameLines(path: string, lineNo: string, context: string, call: string)
    requires ',' !in path && ',' !in lineNo && ',' !in context && ',' !in call
    requires Trimmed(path, {' ', '"'})
    requires lineNo != [] && Trimmed(lineNo, Whitespace)
    requires context != [] && Trimmed(context, Whitespace)
    requires Trimmed(call, {'\n'})
    ensures ParseEntry(PairEntry(FrameLine(path, lineNo, context), CallLine(call)))
         == Ok([path, lineNo, context, "     " + call])
  {
    var entry := PairEntry(FrameLine(path, lineNo, context), CallLine(call));
    var fields := [FileField(path), LineField(lineNo), ContextField(context), "     " + call];
    FrameLineStripped(path, lineNo, context);
    CallLineStripped(call);
    PairedEntryFields(path, lineNo, context, call);
    assert Split(entry, ',') == fields;
    CleanFrameFields(path, lineNo, context, "     " + call);
  }

  /** A call that holds a comma, as `g(a, b)` does, is cut there. The paired entry splits
      into five fields: the call up to the comma becomes the fourth and the rest a fifth.
      The parse raises no error, and `rebuild_entry` shows only the fourth field. */
  lemma CommaInCallSplitsCall(path: string, lineNo: string, context: string, a: string, b: string)
    requires ',' !in path && ',' !in lineNo && ',' !in context && ',' !in a && ',' !in b
    requires Trimmed(path, {' ', '"'})
    requires lineNo != [] && Trimmed(lineNo, Whitespace)
    requires context != [] && Trimmed(context, Whitespace)
    requires Trimmed(a + "," + b, {'\n'})
    ensures ParseEntry(PairEntry(FrameLine(path, lineNo, context), CallLine(a + "," + b)))
         == Ok([path, lineNo, context, "     " + a, b])
  {
    CommaInCallEntry(path, lineNo, context, a + "," + b);
    CommaInCallFields(path, lineNo, context, a, b);
    CommaInCallCleaned(path, lineNo, context, a, b);
  }

  /** The five fields of that entry clean up to the path, the line number, the function
      name and the two halves of the call. */
  lemma CommaInCallCleaned(path: string, lineNo: string, context: string, a: string, b: string)
    requires Trimmed(path, {' ', '"'})
    requires lineNo != [] && Trimmed(lineNo, Whitespace)
    requires context != [] && Trimmed(context, Whitespace)
    ensures CleanFields([FileField(path), LineField(lineNo), ContextField(context), "     " + a, b])
         == [path, lineNo, context, "     " + a, b]
  {
    var fields := [FileField(path), LineField(lineNo), ContextField(context), "     " + a, b];
    CleanFieldsPrefix(fields);
    assert fields[3..] == ["     " + a, b];
    CleanFileField(path);
    CleanLineField(lineNo);
    CleanContextField(context);
    assert [path, lineNo, context] + ["     " + a, b] == [path, lineNo, context, "     " + a, b];
  }

  /** The entry made from a frame line and its call line, before it is cut. */
  lemma CommaInCallEntry(path: string, lineNo: string, context: string, call: string)
    requires context != [] && Trimmed(context, Whitespace)
    requires Trimmed(call, {'\n'})
    ensures PairEntry(FrameLine(path, lineNo, context), CallLine(call)) == FrameText(path, lineNo, context) + ", " + ("    " + call)
  {
    FrameLineStripped(path, lineNo, context);
    CallLineStripped(call);
  }

  /** The entry of a frame whose call holds one comma, cut at its commas: five fields. */
  lemma CommaInCallFields(path: string, lineNo: string, context: string, a: string, b: string)
    requires ',' !in path && ',' !in lineNo && ',' !in context && ',' !in a && ',' !in b
    ensures Split(FrameText(path, lineNo, context) + ", " + ("    " + (a + "," + b)), ',')
         == [FileField(path), LineField(lineNo), ContextField(context), "     " + a, b]
  {
    CommaInCallText(path, lineNo, context, a, b);
    SplitFive(FileField(path), LineField(lineNo), ContextField(context), "     " + a, b, ',');
  }

  /** That entry is the first four fields joined by commas, a comma, and the rest of the
      call. */
  lemma CommaInCallText(path: string, lineNo: string, context: string, a: string, b: string)
    ensures FrameText(path, lineNo, context) + ", " + ("    " + (a + "," + b))
         == FileField(path) + ([','] + LineField(lineNo)) + ([','] + ContextField(context)) + ([','] + ("     " + a)) + [','] + b
  {
    PairedEntryText(path, lineNo, context, a + "," + b);
    assert "," + ("     " + (a + "," + b)) == "," + ("     " + a) + [','] + b;
  }

  /** An error line as Python prints it, `<type>: <value>`, splits back into the type and
      the value when the type holds no colon or newline and the value no newline at its
      ends. */
  lemma ErrorLineRoundTrip(tpe: string, value: string)
    requires ':' !in tpe && '\n' !in tpe
    requires Trimmed(value, {'\n'})
    ensures SplitErrorLine(ErrorText(tpe, value) + "\n") == Ok((tpe, value))
  {
    var line := ErrorText(tpe, value);
    assert line + "\n" == "" + line + "\n";
    StripSurrounding("", line, "\n", {'\n'});
    SplitOnceAtFirst(tpe, ": ", value);
  }

  // ---------------------------------------------------------------------------
  // Whole tracebacks read back

  /** A frame as Python prints it: the file, the line number and the function name on
      the frame line, the source of the call on the line under it. */
  datatype PrintedFrame = PrintedFrame(path: string, lineNo: string, context: string, call: string)

  /** A frame whose two lines read back: no field holds a comma, the path has no spaces
      or quotes at its ends, the line number and function name are not blank and have no
      whitespace at their ends, the call has no newline at its ends, and neither line
      holds the marker. */
  predicate Readable(f: PrintedFrame)
  {
    && ',' !in f.path && ',' !in f.lineNo && ',' !in f.context && ',' !in f.call
    && Trimmed(f.path, {' ', '"'})
    && f.lineNo != [] && Trimmed(f.lineNo, Whitespace)
    && f.context != [] && Trimmed(f.context, Whitespace)
    && Trimmed(f.call, {'\n'})
    && !HasMarker(FrameLine(f.path, f.lineNo, f.context)) && !HasMarker(CallLine(f.call))
  }

  /** The two lines Python prints for each frame, in order. */
  function FramesText(frames: seq<PrintedFrame>): (lines: seq<string>)
    ensures |lines| == 2 * |frames|
    ensures forall i | 0 <= i < |frames| ::
      lines[2 * i] == FrameLine(frames[i].path, frames[i].lineNo, frames[i].context) && lines[2 * i + 1] == CallLine(frames[i].call)
  {
    if frames == [] then []
    else
      var f := frames[0];
      var rest := FramesText(frames[1..]);
      assert forall i | 1 <= i < |frames| :: frames[i] == frames[1..][i - 1];
      [FrameLine(f.path, f.lineNo, f.context), CallLine(f.call)] + rest
  }

  /** The frame tuple read back from a frame: the call keeps the space after the comma
      and its four-space indentation. */
  function FrameTuple(f: PrintedFrame): seq<string>
  {
    [f.path, f.lineNo, f.context, "     " + f.call]
  }

  /** The whole text of a traceback on standard input: the program's own output, the
      marker line, the frame lines and the error line. */
  function PrintedTrace(before: seq<string>, frames: seq<PrintedFrame>, errorLine: string): seq<string>
  {
    Around(before, TracebackIdentifier, FramesText(frames), errorLine)
  }

  /** The frame tuples of the frames, in order. */
  function FrameTuples(frames: seq<PrintedFrame>): seq<seq<string>>
  {
    seq(|frames|, i requires 0 <= i < |frames| => FrameTuple(frames[i]))
  }

  /** A traceback as Python prints it reads back, with the extraction the reader evidently
      means to make, into exactly its frames, in order, and the lines before it. */
  lemma RecoveredFramesRoundTrip(before: seq<string>, frames: seq<PrintedFrame>, errorLine: string)
    requires forall j | 0 <= j < |before| :: !HasMarker(before[j])
    requires forall i | 0 <= i < |frames| :: Readable(frames[i])
    requires !HasMarker(errorLine) && !Indented(errorLine)
    ensures ExtractedFrames(PrintedTrace(before, frames, errorLine)) == Ok(Extraction(FrameTuples(frames), before))
  {
    var lines := FramesText(frames);
    FramesTextIndented(frames);
    var lo := |before| + 1;
    var e := lo + |lines|;
    var pairs := Pairs(Around(before, TracebackIdentifier, lines, errorLine), lo % 2, lo, e);
    IdentifierHasMarker();
    CapturedText(before, TracebackIdentifier, lines, errorLine, lo, e);
    CapturedPairs(before, TracebackIdentifier, lines, errorLine, lo, e, |frames|);
    ParsedEach(pairs, frames, lines);
    ParsedFrames(pairs, frames, before);
  }

  /** A one-frame traceback printed at the top of the input: `_extract_traceback` as
      written reads no frame from it, while the corrected extraction reads the frame. */
  lemma AbsoluteParityLosesFrame(f: PrintedFrame, errorLine: string)
    requires Readable(f)
    requires !HasMarker(errorLine) && !Indented(errorLine)
    ensures Extracted(PrintedTrace([], [f], errorLine)) == Ok(Extraction([], []))
    ensures ExtractedFrames(PrintedTrace([], [f], errorLine)) == Ok(Extraction([FrameTuple(f)], []))
  {
    var lines := FramesText([f]);
    FramesTextIndented([f]);
    AroundIndex([], TracebackIdentifier, lines, errorLine);
    IdentifierHasMarker();
    AbsoluteParityShiftsPairs(PrintedTrace([], [f], errorLine));
    RecoveredFramesRoundTrip([], [f], errorLine);
    assert FrameTuples([f]) == [FrameTuple(f)];
  }

  /** Entries that each parse into their frame's tuple parse, together, into the frame
      tuples. */
  lemma ParsedFrames(pairs: seq<string>, frames: seq<PrintedFrame>, before: seq<string>)
    requires |pairs| == |frames|
    requires forall i | 0 <= i < |frames| :: ParseEntry(pairs[i]) == Ok(FrameTuple(frames[i]))
    ensures Parsed(pairs, before) == Ok(Extraction(FrameTuples(frames), before))
  {
    ParseEntriesEach(pairs);
    var entries := ParseEntries(pairs).value;
    forall i | 0 <= i < |frames|
      ensures entries[i] == FrameTuples(frames)[i]
    {
    }
    assert entries == FrameTuples(frames);
  }

  /** Each entry made from a printed frame line and the call line under it parses into the
      frame. */
  lemma ParsedEach(pairs: seq<string>, frames: seq<PrintedFrame>, lines: seq<string>)
    requires forall i | 0 <= i < |frames| :: Readable(frames[i])
    requires |pairs| == |frames| && |lines| == 2 * |frames|
    requires forall i | 0 <= i < |frames| ::
      lines[2 * i] == FrameLine(frames[i].path, frames[i].lineNo, frames[i].context) && lines[2 * i + 1] == CallLine(frames[i].call)
    requires forall i | 0 <= i < |frames| :: pairs[i] == PairEntry(lines[2 * i], lines[2 * i + 1])
    ensures forall i | 0 <= i < |frames| :: ParseEntry(pairs[i]) == Ok(FrameTuple(frames[i]))
  {
    forall i | 0 <= i < |frames|
      ensures ParseEntry(pairs[i]) == Ok(FrameTuple(frames[i]))
    {
      ParsedFrame(frames[i]);
    }
  }

  /** The entry made from a readable frame's two printed lines parses into the frame. */
  lemma ParsedFrame(f: PrintedFrame)
    requires Readable(f)
    ensures ParseEntry(PairEntry(FrameLine(f.path, f.lineNo, f.context), CallLine(f.call))) == Ok(FrameTuple(f))
  {
    ParsePairedFrameLines(f.path, f.lineNo, f.context, f.call);
  }

  /** Every line Python prints for the frames is indented and holds no marker. */
  lemma {:induction false} FramesTextIndented(frames: seq<PrintedFrame>)
    requires forall i | 0 <= i < |frames| :: Readable(frames[i])
    ensures forall k | 0 <= k < |FramesText(frames)| :: Indented(FramesText(frames)[k]) && !HasMarker(FramesText(frames)[k])
  {
    if frames != [] {
      var f := frames[0];
      FramesTextIndented(frames[1..]);
      assert Readable(f);
      var first := FrameLine(f.path, f.lineNo, f.context);
      assert first[0] == ' ';
      assert CallLine(f.call)[0] == ' ';
      assert FramesText(frames) == [first, CallLine(f.call)] + FramesText(frames[1..]);
    }
  }

  /** The text around the frame lines: the lines before, the marker line, the frame lines,
      the error line. */
  function Around<T>(before: seq<T>, mark: T, lines: seq<T>, last: T): seq<T>
  {
    before + [mark] + lines + [last]
  }

  /** Where each part sits in the text around the frame lines. */
  lemma AroundIndex<T>(before: seq<T>, mark: T, lines: seq<T>, last: T)
    ensures |Around(before, mark, lines, last)| == |before| + |lines| + 2
    ensures forall j | 0 <= j < |before| :: Around(before, mark, lines, last)[j] == before[j]
    ensures Around(before, mark, lines, last)[|before|] == mark
    ensures forall k | 0 <= k < |lines| :: Around(before, mark, lines, last)[|before| + 1 + k] == lines[k]
    ensures Around(before, mark, lines, last)[|before| + 1 + |lines|] == last
    ensures Around(before, mark, lines, last)[..|before|] == before
    ensures Around(before, mark, lines, last)[|before| + 1..|before| + 1 + |lines|] == lines
  {
  }

  /** The extraction of a traceback whose frame lines are all indented and marker-free
      parses the pairs counted from the line after the marker (`lo`) up to the error line
      (`e`), and passes the lines before the marker through. */
  lemma CapturedText(before: seq<string>, mark: string, lines: seq<string>, last: string, lo: nat, e: nat)
    requires lo == |before| + 1 && e == lo + |lines|
    requires forall j | 0 <= j < |before| :: !HasMarker(before[j])
    requires HasMarker(mark)
    requires forall k | 0 <= k < |lines| :: Indented(lines[k]) && !HasMarker(lines[k])
    requires !HasMarker(last) && !Indented(last)
    ensures ExtractedFrames(Around(before, mark, lines, last))
         == Parsed(Pairs(Around(before, mark, lines, last), lo % 2, lo, e), before)
  {
    AroundIndex(before, mark, lines, last);
    CapturedBetween(Around(before, mark, lines, last), before, lines, lo, e);
  }

  /** The same, for a text known only through its parts. */
  lemma CapturedBetween(text: seq<string>, before: seq<string>, lines: seq<string>, lo: nat, e: nat)
    requires lo == |before| + 1 && e == lo + |lines| && e < |text|
    requires text[..|before|] == before && text[lo..e] == lines
    requires forall j | 0 <= j < |before| :: !HasMarker(before[j])
    requires HasMarker(text[|before|])
    requires forall k | 0 <= k < |lines| :: Indented(lines[k]) && !HasMarker(lines[k])
    requires !HasMarker(text[e]) && !Indented(text[e])
    ensures ExtractedFrames(text) == Parsed(Pairs(text, lo % 2, lo, e), before)
  {
    MarkerAfter(text, before);
    StopAfterBlock(text, lo, lines);
    ExtractedFramesUpTo(text, |before|, e, before);
  }

  /** Counted from the line after the marker, the pairs join each frame line with the line
      under it. */
  lemma CapturedPairs(before: seq<string>, mark: string, lines: seq<string>, last: string, lo: nat, e: nat, n: nat)
    requires lo == |before| + 1 && e == lo + |lines| && |lines| == 2 * n
    requires forall k | 0 <= k < |lines| :: Indented(lines[k]) && !HasMarker(lines[k])
    ensures |Pairs(Around(before, mark, lines, last), lo % 2, lo, e)| == n
    ensures forall i | 0 <= i < n ::
      Pairs(Around(before, mark, lines, last), lo % 2, lo, e)[i] == PairEntry(lines[2 * i], lines[2 * i + 1])
  {
    AroundIndex(before, mark, lines, last);
    PairsOfBlock(Around(before, mark, lines, last), lo, e, lines, n);
  }
}

=== FILE: pybuiltins.dfy ===
/** The parts of Python's runtime that the backtrace module leans on, written out over
    `seq<char>`: the exceptions its own code can raise, and the `str` methods, the
    format-spec padding, `str(int)` and POSIX `os.path.basename`. */
module PyBuiltins {

  /** The Python exceptions the modelled code raises by itself (an index out of range,
      an unpacking of the wrong number of values). */
  datatype PyError = IndexError | ValueError

  datatype Option<T> = None | Some(value: T)

  /** A value, or the exception Python raises instead of producing one. */
  datatype Result<T> = Ok(value: T) | Err(error: PyError)

  /** `c.isspace()`: the characters Python counts as whitespace (the ASCII controls tab to
      carriage return and the four separators after them, the space, and the Unicode
      spaces and line and paragraph separators). */
  predicate IsSpace(c: char)
  {
    || c == ' ' || '\t' <= c <= '\r' || '\U{1C}' <= c <= '\U{1F}'
    || c == '\U{85}' || c == '\U{A0}' || c == '\U{1680}' || '\U{2000}' <= c <= '\U{200A}'
    || c == '\U{2028}' || c == '\U{2029}' || c == '\U{202F}' || c == '\U{205F}' || c == '\U{3000}'
  }

  /** What `strip()` removes when it is called without an argument. */
  const Whitespace: set<char> := set c: char | IsSpace(c)

  // ---------------------------------------------------------------------------
  // strip, lstrip, rstrip

  /** Every character of `s` is one of `cs`. */
  predicate AllIn(s: string, cs: set<char>)
  {
    forall i | 0 <= i < |s| :: s[i] in cs
  }

  /** Neither end of `s` is one of `cs`. */
  predicate Trimmed(s: string, cs: set<char>)
  {
    s == [] || (s[0] !in cs && s[|s| - 1] !in cs)
  }

  /** How many characters of `cs` `s` starts with. */
  function LeadingRun(s: string, cs: set<char>): (k: nat)
    ensures k <= |s| && forall i | 0 <= i < k :: s[i] in cs
    ensures k < |s| ==> s[k] !in cs
  {
    if s != [] && s[0] in cs then
      var k := LeadingRun(s[1..], cs);
      assert forall i | 1 <= i <= k :: s[i] == s[1..][i - 1];
      k + 1
    else 0
  }

  /** How many characters of `cs` `s` ends with. */
  function TrailingRun(s: string, cs: set<char>): (k: nat)
    ensures k <= |s| && forall i | |s| - k <= i < |s| :: s[i] in cs
    ensures k < |s| ==> s[|s| - 1 - k] !in cs
  {
    if s != [] && s[|s| - 1] in cs then
      var k := TrailingRun(s[..|s| - 1], cs);
      assert forall i | |s| - 1 - k <= i < |s| - 1 :: s[i] == s[..|s| - 1][i];
      k + 1
    else 0
  }

  /** `s.lstrip(chars)`: drop the longest prefix made only of characters in `cs`. */
  function LStrip(s: string, cs: set<char>): (r: string)
    ensures |r| <= |s|
    ensures r != [] ==> r[0] !in cs
  {
    s[LeadingRun(s, cs)..]
  }

  /** `s.rstrip(chars)`: drop the longest suffix made only of characters in `cs`. */
  function RStrip(s: string, cs: set<char>): (r: string)
    ensures |r| <= |s|
    ensures r != [] ==> r[|r| - 1] !in cs
  {
    s[..|s| - TrailingRun(s, cs)]
  }

  /** `s.strip(chars)`: both ends at once. The result is a piece of `s` that starts and
      ends outside `cs`, and a string that already does so is returned unchanged. */
  function Strip(s: string, cs: set<char>): (r: string)
    ensures |r| <= |s|
    ensures Trimmed(r, cs)
    ensures Trimmed(s, cs) ==> r == s
  {
    RStrip(LStrip(s, cs), cs)
  }

  /** Characters of `cs` in front of `s` make no difference to `lstrip`. */
  lemma {:induction false} LStripSkipsPrefix(x: string, y: string, cs: set<char>)
    requires AllIn(x, cs)
    ensures LStrip(x + y, cs) == LStrip(y, cs)
  {
    LeadingRunPrefix(x, y, cs);
    assert (x + y)[|x|..] == y;
  }

  lemma {:induction false} LeadingRunPrefix(x: string, y: string, cs: set<char>)
    requires AllIn(x, cs)
    ensures LeadingRun(x + y, cs) == |x| + LeadingRun(y, cs)
  {
    if x != [] {
      assert (x + y)[0] == x[0] && (x + y)[1..] == x[1..] + y;
      assert AllIn(x[1..], cs);
      LeadingRunPrefix(x[1..], y, cs);
    } else {
      assert x + y == y;
    }
  }

  /** Characters of `cs` after `s` make no difference to `rstrip`. */
  lemma {:induction false} RStripSkipsSuffix(y: string, x: string, cs: set<char>)
    requires AllIn(x, cs)
    ensures RStrip(y + x, cs) == RStrip(y, cs)
  {
    TrailingRunSuffix(y, x, cs);
    assert (y + x)[..|y| - TrailingRun(y, cs)] == y[..|y| - TrailingRun(y, cs)];
  }

  lemma {:induction false} TrailingRunSuffix(y: string, x: string, cs: set<char>)
    requires AllIn(x, cs)
    ensures TrailingRun(y + x, cs) == |x| + TrailingRun(y, cs)
  {
    if x != [] {
      var x' := x[..|x| - 1];
      assert (y + x)[|y + x| - 1] == x[|x| - 1] && (y + x)[..|y + x| - 1] == y + x';
      assert AllIn(x', cs);
      TrailingRunSuffix(y, x', cs);
    } else {
      assert y + x == y;
    }
  }

  /** A string wrapped in characters of `cs` strips down to itself when its own ends are
      outside `cs`. */
  lemma StripSurrounding(x: string, m: string, y: string, cs: set<char>)
    requires AllIn(x, cs) && AllIn(y, cs) && Trimmed(m, cs)
    ensures Strip(x + m + y, cs) == m
  {
    assert x + m + y == x + (m + y);
    LStripSkipsPrefix(x, m + y, cs);
    if m == [] {
      assert m + y == y + [];
      LStripSkipsPrefix(y, [], cs);
    } else {
      assert (m + y)[0] !in cs;
      RStripSkipsSuffix(m, y, cs);
    }
  }

  /** Stripping removes a leading run of stripped characters and nothing else. */
  lemma StripLeading(x: string, m: string, cs: set<char>)
    requires AllIn(x, cs) && Trimmed(m, cs)
    ensures Strip(x + m, cs) == m
  {
    assert x + m == x + m + "";
    StripSurrounding(x, m, "", cs);
  }

  // ---------------------------------------------------------------------------
  // join and split

  /** How many times `c` occurs in `s`, `s.count(c)`. */
  function Count(s: string, c: char): nat
  {
    if s == [] then 0 else (if s[0] == c then 1 else 0) + Count(s[1..], c)
  }

  /** `sep.join(parts)`. */
  function Join(sep: string, parts: seq<string>): string
  {
    if |parts| == 0 then ""
    else if |parts| == 1 then parts[0]
    else parts[0] + sep + Join(sep, parts[1..])
  }

  /** `s.split(sep)` for a one-character separator: the pieces between the separators, in
      order, none of them holding the separator; joining them back gives `s`. */
  function Split(s: string, sep: char): (parts: seq<string>)
    ensures |parts| == Count(s, sep) + 1
    ensures forall p | p in parts :: sep !in p
    ensures Join([sep], parts) == s
  {
    if s == [] then [""]
    else
      var rest := Split(s[1..], sep);
      if s[0] == sep then
        assert Join([sep], [""] + rest) == [sep] + Join([sep], rest);
        [""] + rest
      else
        var parts := [[s[0]] + rest[0]] + rest[1..];
        assert parts[1..] == rest[1..];
        assert Join([sep], parts) == [s[0]] + Join([sep], rest);
        parts
  }

  /** A string without the separator splits into itself alone. */
  lemma {:induction false} SplitWithoutSeparator(s: string, sep: char)
    requires sep !in s
    ensures Split(s, sep) == [s]
  {
    if s != [] {
      SplitWithoutSeparator(s[1..], sep);
    }
  }

  /** Splitting distributes over a separator placed between two strings. */
  lemma {:induction false} SplitAround(a: string, b: string, sep: char)
    ensures Split(a + [sep] + b, sep) == Split(a, sep) + Split(b, sep)
  {
    if a == [] {
      assert a + [sep] + b == [sep] + b;
      assert ([sep] + b)[1..] == b;
    } else {
      assert (a + [sep] + b)[1..] == a[1..] + [sep] + b;
      SplitAround(a[1..], b, sep);
    }
  }

  /** Four pieces without the separator, joined by it, split back into the four. */
  lemma SplitFour(a: string, b: string, c: string, d: string, sep: char)
    requires sep !in a && sep !in b && sep !in c && sep !in d
    ensures Split(a + ([sep] + b) + ([sep] + c) + ([sep] + d), sep) == [a, b, c, d]
  {
    var ab := a + ([sep] + b);
    var abc := ab + ([sep] + c);
    assert ab == a + [sep] + b;
    assert abc == ab + [sep] + c;
    assert abc + ([sep] + d) == abc + [sep] + d;
    SplitAround(abc, d, sep);
    SplitAround(ab, c, sep);
    SplitAround(a, b, sep);
    SplitWithoutSeparator(a, sep);
    SplitWithoutSeparator(b, sep);
    SplitWithoutSeparator(c, sep);
    SplitWithoutSeparator(d, sep);
  }
  /** Four pieces joined by the separator, then the separator and a fifth piece, split back
      into the five. */
  lemma SplitFive(a: string, b: string, c: string, d: string, e: string, sep: char)
    requires sep !in a && sep !in b && sep !in c && sep !in d && sep !in e
    ensures Split(a + ([sep] + b) + ([sep] + c) + ([sep] + d) + [sep] + e, sep) == [a, b, c, d, e]
  {
    SplitAround(a + ([sep] + b) + ([sep] + c) + ([sep] + d), e, sep);
    SplitFour(a, b, c, d, sep);
    SplitWithoutSeparator(e, sep);
  }



  /** `s.startswith(prefix)`, compared one character at a time. */
  predicate StartsWith(s: string, prefix: string)
  {
    prefix == [] || (s != [] && s[0] == prefix[0] && StartsWith(s[1..], prefix[1..]))
  }

  /** A string that starts with `prefix` begins with exactly those characters. */
  lemma {:induction false} StartsWithTake(s: string, prefix: string)
    requires StartsWith(s, prefix)
    ensures |prefix| <= |s| && s[..|prefix|] == prefix
  {
    if prefix != [] {
      StartsWithTake(s[1..], prefix[1..]);
      assert s[..|prefix|] == [s[0]] + s[1..][..|prefix| - 1];
      assert prefix == [prefix[0]] + prefix[1..];
    }
  }

  /** `prefix + rest` starts with `prefix`. */
  lemma {:induction false} StartsWithAppend(prefix: string, rest: string)
    ensures StartsWith(prefix + rest, prefix)
  {
    if prefix != [] {
      assert (prefix + rest)[1..] == prefix[1..] + rest;
      StartsWithAppend(prefix[1..], rest);
    }
  }

  /** Text added after a string does not change what it starts with. */
  lemma {:induction false} StartsWithExtend(s: string, more: string, prefix: string)
    requires StartsWith(s, prefix)
    ensures StartsWith(s + more, prefix)
  {
    if prefix != [] {
      assert (s + more)[1..] == s[1..] + more;
      StartsWithExtend(s[1..], more, prefix[1..]);
    }
  }

  /** `sub` occurs in `s` starting at index `k`. */
  predicate OccursAt(s: string, sub: string, k: nat)
  {
    k <= |s| && StartsWith(s[k..], sub)
  }

  /** Python's `sub in s` for two strings. */
  predicate Contains(s: string, sub: string)
  {
    exists k | 0 <= k <= |s| :: OccursAt(s, sub, k)
  }

  /** `s.find(sub, from)`: the first index at or after `from` where `sub` occurs, or -1. */
  function FindFrom(s: string, sub: string, from: nat): (k: int)
    decreases |s| + 1 - from
    ensures k == -1 || (from <= k && OccursAt(s, sub, k))
    ensures forall j | from <= j && (k == -1 || j < k) :: !OccursAt(s, sub, j)
  {
    if from > |s| then -1
    else if OccursAt(s, sub, from) then from
    else FindFrom(s, sub, from + 1)
  }

  /** `s.split(sep, 1)` when it yields two pieces, and None when `sep` does not occur (the
      list then has one element). The split is at the first occurrence of `sep`. */
  function SplitOnce(s: string, sep: string): (r: Option<(string, string)>)
    requires sep != []
    ensures r.None? <==> !Contains(s, sep)
    ensures r.Some? ==> r.value.0 + sep + r.value.1 == s
    ensures r.Some? ==> forall j | 0 <= j < |r.value.0| :: !OccursAt(s, sep, j)
    ensures r.Some? ==> !Contains(r.value.0, sep)
  {
    var k := FindFrom(s, sep, 0);
    if k == -1 then None
    else
      assert s[..k] + sep + s[k + |sep|..] == s by {
        StartsWithTake(s[k..], sep);
        assert s[k..k + |sep|] == sep;
        assert s == s[..k] + s[k..k + |sep|] + s[k + |sep|..];
      }
      NotInPrefix(s, sep, k);
      Some((s[..k], s[k + |sep|..]))
  }

  /** An occurrence inside a prefix is an occurrence in the whole string. */
  lemma NotInPrefix(s: string, sep: string, k: nat)
    requires sep != [] && k <= |s|
    requires forall j | 0 <= j < k :: !OccursAt(s, sep, j)
    ensures !Contains(s[..k], sep)
  {
    forall j | 0 <= j <= k && OccursAt(s[..k], sep, j)
      ensures false
    {
      assert s[j..] == s[..k][j..] + s[k..];
      StartsWithExtend(s[..k][j..], s[k..], sep);
      assert OccursAt(s, sep, j);
    }
  }

  /** When the first character of `sep` does not occur in `a`, splitting `a + sep + b`
      once at `sep` gives back `a` and `b`. */
  lemma SplitOnceAtFirst(a: string, sep: string, b: string)
    requires sep != [] && sep[0] !in a
    ensures SplitOnce(a + sep + b, sep) == Some((a, b))
  {
    var s := a + sep + b;
    assert OccursAt(s, sep, |a|) by {
      assert s[|a|..] == sep + b;
      StartsWithAppend(sep, b);
    }
    var halves := SplitOnce(s, sep).value;
    assert |halves.0| == |a|;
    assert halves.0 == s[..|a|] == a;
    assert halves.1 == s[|a| + |sep|..] == b;
  }

  // ---------------------------------------------------------------------------
  // Slicing and list.insert

  /** A prefix of `a + b` no longer than `a` is a prefix of `a`. Kept as a lemma so that
      proofs about long texts see only this one fact about the slice. */
  lemma PrefixOfAppend<T>(a: seq<T>, b: seq<T>, k: nat)
    requires k <= |a|
    ensures (a + b)[..k] == a[..k]
  {
  }

  /** `l[:-2]`: all but the last two elements, nothing when there are two or fewer. */
  function DropLastTwo<T>(s: seq<T>): (r: seq<T>)
    ensures |r| == if |s| <= 2 then 0 else |s| - 2
    ensures r == s[..|r|]
  {
    if |s| <= 2 then [] else s[..|s| - 2]
  }

  /** `l.insert(i, x)` for `0 <= i <= len(l)`: `x` lands at index `i`, the elements
      before it stay where they were and the ones from `i` on move up by one. */
  function Insert<T>(s: seq<T>, i: nat, x: T): (r: seq<T>)
    requires i <= |s|
    ensures |r| == |s| + 1 && r[i] == x
    ensures r[..i] == s[..i] && r[i + 1..] == s[i..]
  {
    s[..i] + [x] + s[i..]
  }

  // ---------------------------------------------------------------------------
  // Format-spec padding

  function Spaces(n: nat): (r: string)
    ensures |r| == n && forall i | 0 <= i < n :: r[i] == ' '
  {
    if n == 0 then "" else Spaces(n - 1) + " "
  }

  /** `'{0:{1}}'.format(s, width)` for a string `s`: left-justified in a field of `width`
      characters. The text is kept whole, only spaces are added, and none when it is
      already as wide as the field. */
  function PadRight(s: string, width: int): (r: string)
    ensures |r| == if |s| < width then width else |s|
    ensures r[..|s|] == s
    ensures forall i | |s| <= i < |r| :: r[i] == ' '
  {
    if |s| < width then s + Spaces(width - |s|) else s
  }

  // ---------------------------------------------------------------------------
  // os.path.basename (POSIX)

  /** `os.path.basename(path)`: everything after the last '/'. It is the longest suffix of
      `path` that holds no '/'. */
  function Basename(path: string): (name: string)
    ensures '/' !in name
    ensures |name| <= |path| && path[|path| - |name|..] == name
    ensures |name| < |path| ==> path[|path| - |name| - 1] == '/'
  {
    if path == [] || path[|path| - 1] == '/' then ""
    else Basename(path[..|path| - 1]) + [path[|path| - 1]]
  }

  // ---------------------------------------------------------------------------
  // str(int)

  function DigitChar(d: nat): char
    requires d < 10
  {
    "0123456789"[d]
  }

  function DigitValue(c: char): nat
    requires '0' <= c <= '9'
  {
    (c as int - '0' as int) as nat
  }

  predicate IsDecimal(s: string)
  {
    s != [] && forall i | 0 <= i < |s| :: '0' <= s[i] <= '9'
  }

  /** `str(n)` for a non-negative integer: its decimal digits, most significant first. */
  function NatToDecimal(n: nat): (s: string)
    ensures IsDecimal(s)
    ensures |s| > 1 ==> s[0] != '0'
  {
    if n < 10 then [DigitChar(n)] else NatToDecimal(n / 10) + [DigitChar(n % 10)]
  }

  /** `int(s)` for a string of decimal digits. */
  function DecimalValue(s: string): nat
    requires forall i | 0 <= i < |s| :: '0' <= s[i] <= '9'
  {
    if s == [] then 0 else DecimalValue(s[..|s| - 1]) * 10 + DigitValue(s[|s| - 1])
  }

  /** Reading back the digits of `str(n)` gives `n`. */
  lemma {:induction false} DecimalRoundTrip(n: nat)
    ensures DecimalValue(NatToDecimal(n)) == n
  {
    var s := NatToDecimal(n);
    if n >= 10 {
      var prefix := NatToDecimal(n / 10);
      assert s[..|s| - 1] == prefix;
      DecimalRoundTrip(n / 10);
    }
  }

  /** `str(i)` for any integer: a minus sign in front of the digits of a negative one. */
  function IntToString(i: int): string
  {
    if i < 0 then "-" + NatToDecimal(-i) else NatToDecimal(i)
  }
}

=== FILE: reparser.dfy ===
/** The plain-text side of backtrace.py: `_extract_traceback` reads the lines of a
    traceback printed by Python back into frame tuples, and `_stdin_hook` checks for the
    traceback line and splits the error line before handing both to `hook`. */
module Reparser {
  import opened PyBuiltins

  /** `TRACEBACK_IDENTIFIER`, the line Python prints before the frames. */
  const TracebackIdentifier := "Traceback (most recent call last):\n"

  /** `TRACEBACK_IDENTIFIER in line`: the line holds the marker somewhere. */
  predicate HasMarker(line: string)
  {
    Contains(line, TracebackIdentifier)
  }

  /** The marker line holds the marker. */
  lemma IdentifierHasMarker()
    ensures HasMarker(TracebackIdentifier)
  {
    StartsWithAppend(TracebackIdentifier, "");
    assert TracebackIdentifier[0..] == TracebackIdentifier + "";
    assert OccursAt(TracebackIdentifier, TracebackIdentifier, 0);
  }

  /** `line.startswith(' ')`. */
  predicate Indented(line: string)
  {
    |line| > 0 && line[0] == ' '
  }

  // ---------------------------------------------------------------------------
  // What _extract_traceback computes

  /** The first line at or after `from` that holds the marker, `|text|` when none does. */
  function FindMarker(text: seq<string>, from: nat): (m: nat)
    requires from <= |text|
    decreases |text| - from
    ensures from <= m <= |text|
    ensures m < |text| ==> HasMarker(text[m])
    ensures forall j | from <= j < m :: !HasMarker(text[j])
  {
    if from == |text| || HasMarker(text[from]) then from else FindMarker(text, from + 1)
  }

  /** Where capturing starts: the first line holding the marker, `|text|` when none does. */
  function FirstMarker(text: seq<string>): nat
  {
    FindMarker(text, 0)
  }

  /** The first line at or after `from` that ends the capture: it neither holds the marker
      nor starts with a space. `|text|` when every line from `from` on is one or the other. */
  function StopIndex(text: seq<string>, from: nat): (e: nat)
    requires from <= |text|
    decreases |text| - from
    ensures from <= e <= |text|
    ensures e < |text| ==> !HasMarker(text[e]) && !Indented(text[e])
    ensures forall j | from <= j < e :: HasMarker(text[j]) || Indented(text[j])
  {
    if from == |text| || (!HasMarker(text[from]) && !Indented(text[from])) then from
    else StopIndex(text, from + 1)
  }

  /** While capturing, line `j` is joined with the line after it: it is indented, holds no
      marker, and its index has the given parity. `_extract_traceback` pairs the lines at
      even indices of the whole input (`parity` 0). */
  predicate StartsPair(text: seq<string>, parity: nat, j: nat)
    requires j < |text|
  {
    j % 2 == parity && Indented(text[j]) && !HasMarker(text[j])
  }

  /** The entry made of a line and the line after it: the first stripped of whitespace
      and then of newlines, the second of newlines, joined by `', '`. */
  function PairEntry(line: string, next: string): string
  {
    Strip(Strip(line, Whitespace), {'\n'}) + ", " + Strip(next, {'\n'})
  }

  /** The paired entries collected from lines `lo` up to `hi`, in order. */
  function Pairs(text: seq<string>, parity: nat, lo: nat, hi: nat): seq<string>
    requires lo <= hi <= |text|
    requires hi == lo || hi < |text| || !StartsPair(text, parity, hi - 1)
    decreases hi
  {
    if hi == lo then []
    else Pairs(text, parity, lo, hi - 1) + (if StartsPair(text, parity, hi - 1) then [PairEntry(text[hi - 1], text[hi])] else [])
  }

  /** One field of an entry cleaned up: whitespace stripped, then any leading run of the
      characters of `word`, then the characters of `trim` at both ends. Nothing is added. */
  function CleanField(field: string, word: set<char>, trim: set<char>): (r: string)
    ensures Trimmed(r, trim)
  {
    var inner := LStrip(Strip(field, Whitespace), word);
    Strip(inner, trim)
  }

  /** `element[0].strip().lstrip('File').strip(' "')`: the file field. */
  function CleanFile(field: string): (r: string)
    ensures Trimmed(r, {' ', '"'})
  {
    CleanField(field, {'F', 'i', 'l', 'e'}, {' ', '"'})
  }

  /** `element[1].strip().lstrip('line').strip()`: the line field. */
  function CleanLine(field: string): (r: string)
    ensures Trimmed(r, Whitespace)
  {
    CleanField(field, {'l', 'i', 'n', 'e'}, Whitespace)
  }

  /** `element[2].strip().lstrip('in').strip()`: the function field. */
  function CleanContext(field: string): (r: string)
    ensures Trimmed(r, Whitespace)
  {
    CleanField(field, {'i', 'n'}, Whitespace)
  }

  /** The fields of an entry after the clean-up: the file, line and function fields
      cleaned in place, the others kept. */
  function CleanFields(element: seq<string>): (fields: seq<string>)
    requires |element| >= 3
    ensures |fields| == |element| && forall i | 3 <= i < |fields| :: fields[i] == element[i]
  {
    element[0 := CleanFile(element[0])][1 := CleanLine(element[1])][2 := CleanContext(element[2])]
  }

  /** The clean-up of a four-field entry, field by field. */
  lemma CleanFieldsOfFour(a: string, b: string, c: string, d: string)
    ensures CleanFields([a, b, c, d]) == [CleanFile(a), CleanLine(b), CleanContext(c), d]
  {
  }

  /** The clean-up of any entry with at least three fields: the first three are cleaned as
      path, line and function, and the rest are kept as split. */
  lemma CleanFieldsPrefix(element: seq<string>)
    requires |element| >= 3
    ensures CleanFields(element) == [CleanFile(element[0]), CleanLine(element[1]), CleanContext(element[2])] + element[3..]
  {
    ReplacedFirstThree(element, CleanFile(element[0]), CleanLine(element[1]), CleanContext(element[2]));
  }

  /** Replacing the first three fields leaves the rest of the entry behind them. */
  lemma ReplacedFirstThree(element: seq<string>, x: string, y: string, z: string)
    requires |element| >= 3
    ensures element[0 := x][1 := y][2 := z] == [x, y, z] + element[3..]
  {
    var r := element[0 := x][1 := y][2 := z];
    var s := [x, y, z] + element[3..];
    forall i | 0 <= i < |r| ensures r[i] == s[i] {
    }
  }

  /** One entry as the second loop of `_extract_traceback` rebuilds it. The entry is split
      on every ','; the first field loses its whitespace, then any leading 'F', 'i', 'l' or
      'e' characters, then spaces and quotes; the second loses whitespace, leading 'l', 'i',
      'n' or 'e' characters, then whitespace; the third the same with 'i' and 'n'. The other
      fields are kept as they are. With fewer than three fields Python raises IndexError. */
  function ParseEntry(line: string): Result<seq<string>>
  {
    var element := Split(line, ',');
    if |element| < 3 then Err(IndexError)
    else
      Ok(CleanFields(element))
  }

  /** An entry parses exactly when it has at least two commas, and otherwise raises
      IndexError. The tuple has one field per comma-separated part; the first three are
      trimmed, and the others are the parts as split. */
  lemma ParseEntryShape(line: string)
    ensures ParseEntry(line).Ok? <==> Count(line, ',') >= 2
    ensures ParseEntry(line).Err? ==> ParseEntry(line).error == IndexError
    ensures ParseEntry(line).Ok? ==> |ParseEntry(line).value| == Count(line, ',') + 1
    ensures ParseEntry(line).Ok? ==> forall i | 3 <= i < |ParseEntry(line).value| :: ParseEntry(line).value[i] == Split(line, ',')[i]
    ensures ParseEntry(line).Ok? ==>
      var fields := ParseEntry(line).value;
      Trimmed(fields[0], {' ', '"'}) && Trimmed(fields[1], Whitespace) && Trimmed(fields[2], Whitespace)
  {
  }

  /** Every entry parsed in order, or the error of the first one that does not parse. */
  function ParseEntries(lines: seq<string>): Result<seq<seq<string>>>
  {
    if lines == [] then Ok([])
    else
      match ParseEntry(lines[0])
      case Err(error) => Err(error)
      case Ok(fields) =>
        match ParseEntries(lines[1..])
        case Ok(rest) => Ok([fields] + rest)
        case Err(error) => Err(error)
  }

  /** The entries parse exactly when each of them does, and then entry `i` gives frame
      tuple `i`; otherwise the error is the IndexError of an entry with too few fields. */
  lemma {:induction false} ParseEntriesEach(lines: seq<string>)
    ensures ParseEntries(lines).Ok? <==> forall i | 0 <= i < |lines| :: ParseEntry(lines[i]).Ok?
    ensures ParseEntries(lines).Err? ==> ParseEntries(lines).error == IndexError
    ensures ParseEntries(lines).Ok? ==> |ParseEntries(lines).value| == |lines|
    ensures ParseEntries(lines).Ok? ==> forall i | 0 <= i < |lines| :: ParseEntries(lines).value[i] == ParseEntry(lines[i]).value
  {
    if lines != [] {
      var tail := lines[1..];
      ParseEntriesEach(tail);
      var head := ParseEntry(lines[0]);
      if head.Ok? && ParseEntries(tail).Ok? {
        var rest := ParseEntries(tail).value;
        var all := [head.value] + rest;
        assert ParseEntries(lines) == Ok(all);
        forall i | 0 <= i < |lines|
          ensures ParseEntry(lines[i]).Ok? && all[i] == ParseEntry(lines[i]).value
        {
          if i > 0 {
            assert lines[i] == tail[i - 1];
            assert all[i] == rest[i - 1];
          }
        }
      } else if head.Ok? {
        var k :| 0 <= k < |tail| && !ParseEntry(tail[k]).Ok?;
        assert lines[k + 1] == tail[k];
      }
    }
  }

  /** What `_extract_traceback` returns: the frame tuples and the lines outside the
      traceback. */
  datatype Extraction = Extraction(entries: seq<seq<string>>, allElse: seq<string>)

  /** What the first loop of `_extract_traceback` leaves behind: the collected entries
      and the lines before the traceback. */
  datatype Scan = Scan(entries: seq<string>, allElse: seq<string>)

  /** The first loop of `_extract_traceback`, or the IndexError it raises. Lines before
      the first marker line pass through. After it, lines holding the marker are skipped,
      indented ones at even indices are paired with the next line (IndexError when there is
      none), and the first other line is collected and ends the capture. */
  function Scanned(text: seq<string>): Result<Scan>
  {
    var m := FirstMarker(text);
    if m == |text| then Ok(Scan([], text))
    else
      var e := StopIndex(text, m + 1);
      if e == |text| && m + 1 < |text| && StartsPair(text, 0, |text| - 1) then Err(IndexError)
      else Ok(Scan(Pairs(text, 0, m + 1, e) + (if e < |text| then [text[e]] else []), text[..m]))
  }

  /** The result of `_extract_traceback(text)`, or the IndexError it raises: the scan, then
      all but the last two collected entries parsed. */
  function Extracted(text: seq<string>): Result<Extraction>
  {
    match Scanned(text)
    case Err(error) => Err(error)
    case Ok(scan) => Parsed(DropLastTwo(scan.entries), scan.allElse)
  }

  /** The kept entries parsed, with the lines outside the traceback; or the error. */
  function Parsed(kept: seq<string>, allElse: seq<string>): Result<Extraction>
  {
    match ParseEntries(kept)
    case Ok(entries) => Ok(Extraction(entries, allElse))
    case Err(error) => Err(error)
  }

  /** When the marker is the first line, `_extract_traceback` as written pairs the call
      line of a frame with the line under it (its index is the even one) and never the
      frame line itself; keeping all but the last two entries then drops even that pair.
      A one-frame traceback yields no frames at all. */
  lemma AbsoluteParityShiftsPairs(text: seq<string>)
    requires |text| == 4 && HasMarker(text[0])
    requires Indented(text[1]) && !HasMarker(text[1]) && Indented(text[2]) && !HasMarker(text[2])
    requires !HasMarker(text[3]) && !Indented(text[3])
    ensures Scanned(text) == Ok(Scan([PairEntry(text[2], text[3]), text[3]], []))
    ensures Extracted(text) == Ok(Extraction([], []))
  {
    var entries := [PairEntry(text[2], text[3]), text[3]];
    MarkerAfter(text, []);
    StopAfterBlock(text, 1, text[1..3]);
    ScannedUpTo(text, 0, 3, []);
    assert !StartsPair(text, 0, 1) && StartsPair(text, 0, 2);
    PairsStep(text, 0, 1, 1);
    PairsStep(text, 0, 1, 2);
    assert Pairs(text, 0, 1, 3) + [text[3]] == entries;
    assert DropLastTwo(entries) == [];
    assert ParseEntries([]) == Ok([]);
  }

  /** When the capture ends at a line of the text, the scan collects the pairs after the
      marker and that line. */
  lemma ScannedUpTo(text: seq<string>, m: nat, e: nat, before: seq<string>)
    requires m < |text| && FirstMarker(text) == m && text[..m] == before
    requires e < |text| && StopIndex(text, m + 1) == e
    ensures Scanned(text) == Ok(Scan(Pairs(text, 0, m + 1, e) + [text[e]], before))
  {
  }

  /** The extraction `_extract_traceback` evidently means to make: from the line after the
      marker on, the lines are read two at a time, each frame line paired with the call line
      under it, and every pair is parsed into a frame; the line that ends the capture is
      not a frame. It differs from `Extracted` only in where the pairing starts and in
      keeping the last pair. */
  function ExtractedFrames(text: seq<string>): Result<Extraction>
  {
    var m := FirstMarker(text);
    if m == |text| then Ok(Extraction([], text))
    else
      var parity := (m + 1) % 2;
      var e := StopIndex(text, m + 1);
      if e == |text| && m + 1 < |text| && StartsPair(text, parity, |text| - 1) then Err(IndexError)
      else Parsed(Pairs(text, parity, m + 1, e), text[..m])
  }

  /** When the capture ends at a line of the text, the corrected extraction parses the
      pairs counted from the line after the marker up to that line. */
  lemma ExtractedFramesUpTo(text: seq<string>, m: nat, e: nat, before: seq<string>)
    requires m < |text| && FirstMarker(text) == m && text[..m] == before
    requires e < |text| && StopIndex(text, m + 1) == e
    ensures ExtractedFrames(text) == Parsed(Pairs(text, (m + 1) % 2, m + 1, e), before)
  {
  }

  /** The first marker line follows lines that hold none. */
  lemma MarkerAfter(text: seq<string>, before: seq<string>)
    requires |before| < |text| && text[..|before|] == before
    requires forall j | 0 <= j < |before| :: !HasMarker(before[j])
    requires HasMarker(text[|before|])
    ensures FirstMarker(text) == |before|
  {
    assert forall j | 0 <= j < |before| :: text[j] == text[..|before|][j];
  }

  /** A block of indented lines that ends at a line neither indented nor holding the marker
      is captured up to that line. */
  lemma StopAfterBlock(text: seq<string>, lo: nat, lines: seq<string>)
    requires lo + |lines| < |text| && text[lo..lo + |lines|] == lines
    requires forall k | 0 <= k < |lines| :: Indented(lines[k])
    requires !HasMarker(text[lo + |lines|]) && !Indented(text[lo + |lines|])
    ensures StopIndex(text, lo) == lo + |lines|
  {
  }

  /** A block of `2 * n` indented, marker-free lines starting at `lo` gives `n` pairs when
      pairs are counted from `lo`: each joins line `2 * i` of the block with the line under
      it. */
  lemma PairsOfBlock(text: seq<string>, lo: nat, e: nat, lines: seq<string>, n: nat)
    requires e == lo + |lines| && e < |text| && text[lo..e] == lines && |lines| == 2 * n
    requires forall k | 0 <= k < |lines| :: Indented(lines[k]) && !HasMarker(lines[k])
    ensures |Pairs(text, lo % 2, lo, e)| == n
    ensures forall i | 0 <= i < n :: Pairs(text, lo % 2, lo, e)[i] == PairEntry(lines[2 * i], lines[2 * i + 1])
  {
    BlockEveryOther(text, lo, e, lines, n);
    PairsEveryOther(text, lo % 2, lo, n);
    BlockLines(text, lo, e, lines, n);
    assert lo + 2 * n == e;
  }

  /** The lines of such a block, two at a time. */
  lemma BlockLines(text: seq<string>, lo: nat, e: nat, lines: seq<string>, n: nat)
    requires e == lo + |lines| && e <= |text| && text[lo..e] == lines && |lines| == 2 * n
    ensures forall i | 0 <= i < n :: text[lo + 2 * i] == lines[2 * i] && text[lo + 2 * i + 1] == lines[2 * i + 1]
  {
    forall i | 0 <= i < n
      ensures text[lo + 2 * i] == lines[2 * i] && text[lo + 2 * i + 1] == lines[2 * i + 1]
    {
      assert text[lo + 2 * i] == text[lo..e][2 * i];
      assert text[lo + 2 * i + 1] == text[lo..e][2 * i + 1];
    }
  }

  /** Every other line of such a block, from its first, is indented and holds no marker. */
  lemma BlockEveryOther(text: seq<string>, lo: nat, e: nat, lines: seq<string>, n: nat)
    requires e == lo + |lines| && e < |text| && text[lo..e] == lines && |lines| == 2 * n
    requires forall k | 0 <= k < |lines| :: Indented(lines[k]) && !HasMarker(lines[k])
    ensures forall i | 0 <= i < n :: Indented(text[lo + 2 * i]) && !HasMarker(text[lo + 2 * i])
  {
    forall i | 0 <= i < n
      ensures Indented(text[lo + 2 * i]) && !HasMarker(text[lo + 2 * i])
    {
      assert text[lo + 2 * i] == text[lo..e][2 * i];
    }
  }

  /** When every other line from `lo` is indented and holds no marker, the pairs up to
      `lo + 2 * n` join each such line with the one under it. */
  lemma {:induction false} PairsEveryOther(text: seq<string>, parity: nat, lo: nat, n: nat)
    requires lo % 2 == parity && lo + 2 * n <= |text|
    requires forall i | 0 <= i < n :: Indented(text[lo + 2 * i]) && !HasMarker(text[lo + 2 * i])
    ensures |Pairs(text, parity, lo, lo + 2 * n)| == n
    ensures forall i | 0 <= i < n :: Pairs(text, parity, lo, lo + 2 * n)[i] == PairEntry(text[lo + 2 * i], text[lo + 2 * i + 1])
  {
    if n > 0 {
      var j := lo + 2 * (n - 1);
      PairsEveryOther(text, parity, lo, n - 1);
      var before := Pairs(text, parity, lo, j);
      ParityKeeps(lo, n - 1);
      assert StartsPair(text, parity, j);
      ParityFlips(j);
      assert !StartsPair(text, parity, j + 1);
      PairsTwoMore(text, parity, lo, j);
      var all := Pairs(text, parity, lo, lo + 2 * n);
      assert all == before + [PairEntry(text[j], text[j + 1])];
      forall i | 0 <= i < n
        ensures all[i] == PairEntry(text[lo + 2 * i], text[lo + 2 * i + 1])
      {
        if i < n - 1 {
          assert all[i] == before[i];
        }
      }
    }
  }

  /** A line that starts a pair and the line under it add that one pair. */
  lemma PairsTwoMore(text: seq<string>, parity: nat, lo: nat, j: nat)
    requires lo <= j && j + 2 <= |text|
    requires StartsPair(text, parity, j)
    ensures Pairs(text, parity, lo, j + 2) == Pairs(text, parity, lo, j) + [PairEntry(text[j], text[j + 1])]
  {
    PairsStep(text, parity, lo, j);
    ParityFlips(j);
    PairsStep(text, parity, lo, j + 1);
  }

  /** Consecutive lines have different parities. Kept as a lemma so that proofs about
      pairs see no `%` reasoning of their own. */
  lemma ParityFlips(j: nat)
    ensures (j + 1) % 2 != j % 2
  {
  }

  /** Lines an even distance apart have the same parity. */
  lemma ParityKeeps(j: nat, i: nat)
    ensures (j + 2 * i) % 2 == j % 2
  {
  }

  /** Line `hi` adds one pair to those collected before it, or none. */
  lemma PairsStep(text: seq<string>, parity: nat, lo: nat, hi: nat)
    requires lo <= hi < |text|
    requires StartsPair(text, parity, hi) ==> hi + 1 < |text|
    ensures StartsPair(text, parity, hi) ==> Pairs(text, parity, lo, hi + 1) == Pairs(text, parity, lo, hi) + [PairEntry(text[hi], text[hi + 1])]
    ensures !StartsPair(text, parity, hi) ==> Pairs(text, parity, lo, hi + 1) == Pairs(text, parity, lo, hi)
  {
    if !StartsPair(text, parity, hi) {
      assert Pairs(text, parity, lo, hi) + [] == Pairs(text, parity, lo, hi);
    }
  }

  /** The first loop of `_extract_traceback`: one pass over the lines with a `capture`
      flag. */
  method ScanLines(text: seq<string>) returns (res: Result<Scan>)
    ensures res == Scanned(text)
  {
    var capture := false;
    var entries: seq<string> := [];
    var allElse: seq<string> := [];
    var index := 0;
    ScanStart(text);
    while index < |text|
      invariant index <= |text| && Scanning(text, index, capture, entries, allElse)
    {
      var line := text[index];
      if HasMarker(line) {
        ScanMarkerLine(text, index, capture, entries, allElse);
        capture := true;
        assert Scanning(text, index + 1, capture, entries, allElse);
      } else if capture && Indented(line) {
        if index % 2 == 0 {
          if index + 1 >= |text| {
            ScanMissingNextLine(text, index, entries, allElse);
            return Err(IndexError);
          }
          ScanPairedLine(text, index, entries, allElse);
          entries := entries + [PairEntry(line, text[index + 1])];
          assert Scanning(text, index + 1, capture, entries, allElse);
        } else {
          ScanOddLine(text, index, entries, allElse);
          assert Scanning(text, index + 1, capture, entries, allElse);
        }
      } else if capture {
        ScanStopLine(text, index, entries, allElse);
        entries := entries + [line];
        break;
      } else {
        ScanOutsideLine(text, index, entries, allElse);
        allElse := allElse + [line];
        assert Scanning(text, index + 1, capture, entries, allElse);
      }
      index := index + 1;
    }
    if index == |text| {
      ScanEnd(text, capture, entries, allElse);
    }
    res := Ok(Scan(entries, allElse));
  }

  /** What the first loop of `_extract_traceback` has built after reading the lines before
      `index`: outside the traceback, every line so far is passed through; inside it,
      the lines before the marker are passed through, the capture has not yet ended, and
      the collected entries are the pairs made so far. */
  ghost predicate Scanning(text: seq<string>, index: nat, capture: bool, entries: seq<string>, allElse: seq<string>)
    requires index <= |text|
  {
    var m := FirstMarker(text);
    && (capture <==> m < index)
    && (!capture ==> allElse == text[..index] && entries == [])
    && (capture ==>
          && allElse == text[..m]
          && index <= StopIndex(text, m + 1)
          && (index == m + 1 || index < |text| || !StartsPair(text, 0, index - 1))
          && entries == Pairs(text, 0, m + 1, index))
  }

  lemma ScanStart(text: seq<string>)
    ensures Scanning(text, 0, false, [], [])
  {
  }

  /** A marker line starts the capture, or is skipped once it has started. */
  lemma ScanMarkerLine(text: seq<string>, index: nat, capture: bool, entries: seq<string>, allElse: seq<string>)
    requires index < |text| && Scanning(text, index, capture, entries, allElse)
    requires HasMarker(text[index])
    ensures Scanning(text, index + 1, true, entries, allElse)
  {
    var m := FirstMarker(text);
    if capture {
      PairsStep(text, 0, m + 1, index);
    }
  }

  /** While capturing, an indented line at an even index is paired with the next one. */
  lemma ScanPairedLine(text: seq<string>, index: nat, entries: seq<string>, allElse: seq<string>)
    requires index + 1 < |text| && Scanning(text, index, true, entries, allElse)
    requires Indented(text[index]) && !HasMarker(text[index]) && index % 2 == 0
    ensures Scanning(text, index + 1, true, entries + [PairEntry(text[index], text[index + 1])], allElse)
  {
    var m := FirstMarker(text);
    assert StartsPair(text, 0, index);
    assert index < StopIndex(text, m + 1);
    PairsStep(text, 0, m + 1, index);
  }

  /** While capturing, an indented line at an odd index is skipped. */
  lemma ScanOddLine(text: seq<string>, index: nat, entries: seq<string>, allElse: seq<string>)
    requires index < |text| && Scanning(text, index, true, entries, allElse)
    requires Indented(text[index]) && !HasMarker(text[index]) && index % 2 == 1
    ensures Scanning(text, index + 1, true, entries, allElse)
  {
    PairsStep(text, 0, FirstMarker(text) + 1, index);
  }

  /** While capturing, an indented last line at an even index has no line to pair with. */
  lemma ScanMissingNextLine(text: seq<string>, index: nat, entries: seq<string>, allElse: seq<string>)
    requires index < |text| && Scanning(text, index, true, entries, allElse)
    requires Indented(text[index]) && !HasMarker(text[index]) && index % 2 == 0
    requires index + 1 >= |text|
    ensures Scanned(text) == Err(IndexError)
  {
  }

  /** While capturing, the first other line is collected and ends the scan. */
  lemma ScanStopLine(text: seq<string>, index: nat, entries: seq<string>, allElse: seq<string>)
    requires index < |text| && Scanning(text, index, true, entries, allElse)
    requires !Indented(text[index]) && !HasMarker(text[index])
    ensures Scanned(text) == Ok(Scan(entries + [text[index]], allElse))
  {
  }

  /** Before the marker, a line is passed through. */
  lemma ScanOutsideLine(text: seq<string>, index: nat, entries: seq<string>, allElse: seq<string>)
    requires index < |text| && Scanning(text, index, false, entries, allElse)
    requires !HasMarker(text[index])
    ensures Scanning(text, index + 1, false, entries, allElse + [text[index]])
  {
    assert text[..index + 1] == text[..index] + [text[index]];
  }

  /** A scan that reaches the end of the text without a stop line. */
  lemma ScanEnd(text: seq<string>, capture: bool, entries: seq<string>, allElse: seq<string>)
    requires Scanning(text, |text|, capture, entries, allElse)
    ensures Scanned(text) == Ok(Scan(entries, allElse))
  {
    if capture {
      assert entries + [] == entries;
    } else {
      assert text[..|text|] == text;
    }
  }

  /** The second loop of `_extract_traceback`: every kept entry parsed in turn. */
  method ParseKept(kept: seq<string>) returns (res: Result<seq<seq<string>>>)
    ensures res == ParseEntries(kept)
  {
    var tracebackEntries: seq<seq<string>> := [];
    assert kept[0..] == kept;
    PrependedNothing(ParseEntries(kept));
    for i := 0 to |kept|
      invariant ParseEntries(kept) == Prepended(tracebackEntries, ParseEntries(kept[i..]))
    {
      var element := ParseEntry(kept[i]);
      ParseEntriesStep(kept, i);
      if element.Err? {
        return Err(element.error);
      }
      PrependedShift(tracebackEntries, element.value, ParseEntries(kept[i + 1..]));
      tracebackEntries := tracebackEntries + [element.value];
    }
    assert tracebackEntries + [] == tracebackEntries;
    res := Ok(tracebackEntries);
  }

  /** The entries parsed so far in front of what parsing the rest gives. */
  function Prepended(done: seq<seq<string>>, rest: Result<seq<seq<string>>>): Result<seq<seq<string>>>
  {
    match rest
    case Ok(more) => Ok(done + more)
    case Err(error) => Err(error)
  }

  lemma PrependedNothing(r: Result<seq<seq<string>>>)
    ensures Prepended([], r) == r
  {
    if r.Ok? {
      assert [] + r.value == r.value;
    }
  }

  lemma PrependedShift(done: seq<seq<string>>, fields: seq<string>, r: Result<seq<seq<string>>>)
    ensures Prepended(done + [fields], r) == Prepended(done, Prepended([fields], r))
  {
    if r.Ok? {
      assert done + [fields] + r.value == done + ([fields] + r.value);
    }
  }

  /** Parsing the entries from `i` on is parsing entry `i`, then the ones after it. */
  lemma ParseEntriesStep(kept: seq<string>, i: nat)
    requires i < |kept|
    ensures ParseEntry(kept[i]).Err? ==> ParseEntries(kept[i..]) == Err(ParseEntry(kept[i]).error)
    ensures ParseEntry(kept[i]).Ok? ==>
      ParseEntries(kept[i..]) == Prepended([ParseEntry(kept[i]).value], ParseEntries(kept[i + 1..]))
  {
    assert kept[i..][0] == kept[i];
    assert kept[i..][1..] == kept[i + 1..];
  }

  /** `_extract_traceback`: the scan, then all but the last two collected entries parsed.
      Lines before the traceback come back as they are. */
  method ExtractTraceback(text: seq<string>) returns (res: Result<Extraction>)
    ensures res == Extracted(text)
  {
    var scan := ScanLines(text);
    if scan.Err? {
      return Err(scan.error);
    }
    var parsed := ParseKept(DropLastTwo(scan.value.entries));
    if parsed.Err? {
      return Err(parsed.error);
    }
    res := Ok(Extraction(parsed.value, scan.value.allElse));
  }

  // ---------------------------------------------------------------------------
  // Properties of the extraction

  /** Without a marker line the input passes through untouched and no frame is found; and
      only then: once a marker line is present, the lines from it on are held back. */
  lemma NoMarkerPassesThrough(text: seq<string>)
    ensures (forall j | 0 <= j < |text| :: !HasMarker(text[j])) <==> Extracted(text) == Ok(Extraction([], text))
  {
    var m := FirstMarker(text);
    if forall j | 0 <= j < |text| :: !HasMarker(text[j]) {
      assert m == |text|;
      assert DropLastTwo<string>([]) == [];
    } else {
      assert m < |text|;
      var r := Extracted(text);
      if r.Ok? {
        assert |r.value.allElse| == m;
      }
    }
  }

  /** The first marker found in `text + rest` is the one in `text`, when there is one. */
  lemma {:induction false} FindMarkerAppend(text: seq<string>, rest: seq<string>, from: nat)
    requires from <= |text| && FindMarker(text, from) < |text|
    ensures FindMarker(text + rest, from) == FindMarker(text, from)
    decreases |text| - from
  {
    assert (text + rest)[from] == text[from];
    if !HasMarker(text[from]) {
      FindMarkerAppend(text, rest, from + 1);
    }
  }

  /** The line that ends the capture in `text` still ends it in `text + rest`. */
  lemma {:induction false} StopIndexAppend(text: seq<string>, rest: seq<string>, from: nat)
    requires from <= |text| && StopIndex(text, from) < |text|
    ensures StopIndex(text + rest, from) == StopIndex(text, from)
    decreases |text| - from
  {
    assert (text + rest)[from] == text[from];
    if HasMarker(text[from]) || Indented(text[from]) {
      StopIndexAppend(text, rest, from + 1);
    }
  }

  /** Pairs that lie inside `text` are the same in `text + rest`. */
  lemma {:induction false} PairsAppend(text: seq<string>, rest: seq<string>, parity: nat, lo: nat, hi: nat)
    requires lo <= hi < |text|
    ensures Pairs(text + rest, parity, lo, hi) == Pairs(text, parity, lo, hi)
    decreases hi
  {
    if hi > lo {
      PairsAppend(text, rest, parity, lo, hi - 1);
      assert (text + rest)[hi - 1] == text[hi - 1] && (text + rest)[hi] == text[hi];
    }
  }

  /** Once a line that is neither indented nor a marker line has ended the capture, the
      lines after it change nothing: `_extract_traceback` stops reading at that line. */
  lemma LinesAfterStopIgnored(text: seq<string>, rest: seq<string>)
    requires FirstMarker(text) < |text|
    requires StopIndex(text, FirstMarker(text) + 1) < |text|
    ensures Extracted(text + rest) == Extracted(text)
  {
    ScanStopsAtStop(text, rest);
  }

  /** The scan of `text + rest` is the scan of `text` when the capture ends inside `text`. */
  lemma ScanStopsAtStop(text: seq<string>, rest: seq<string>)
    requires FirstMarker(text) < |text|
    requires StopIndex(text, FirstMarker(text) + 1) < |text|
    ensures Scanned(text + rest) == Scanned(text)
  {
    var m := FirstMarker(text);
    FindMarkerAppend(text, rest, 0);
    var e := StopIndex(text, m + 1);
    StopIndexAppend(text, rest, m + 1);
    PairsAppend(text, rest, 0, m + 1, e);
    assert (text + rest)[e] == text[e];
    PrefixOfAppend(text, rest, m);
    var scan := Scan(Pairs(text, 0, m + 1, e) + [text[e]], text[..m]);
    assert Scanned(text) == Ok(scan);
    assert Scanned(text + rest) == Ok(scan);
  }
}

=== FILE: stdinhook.dfy ===
/** `_stdin_hook`: the check that the piped text holds a traceback, and how the error
    line is split into the type and the value handed to `hook`. */
module StdinHook {
  import opened PyBuiltins
  import opened Formatter
  import opened Reparser

  /** `TRACEBACK_IDENTIFIER in output` on the list of lines: some line is exactly the
      marker line. */
  predicate HasTracebackLine(output: seq<string>)
  {
    TracebackIdentifier in output
  }

  /** A line that is exactly the marker holds it, so input that passes the check in
      `_stdin_hook` always starts a capture. */
  lemma TracebackLineStartsCapture(output: seq<string>)
    requires HasTracebackLine(output)
    ensures FirstMarker(output) < |output|
  {
    var j :| 0 <= j < |output| && output[j] == TracebackIdentifier;
    IdentifierHasMarker();
  }

  /** The check is stricter than capturing: an indented marker line starts a capture but
      does not pass the check. */
  lemma IndentedMarkerIsNotTracebackLine()
    ensures !HasTracebackLine(["  " + TracebackIdentifier])
    ensures FirstMarker(["  " + TracebackIdentifier]) == 0
  {
    var line := "  " + TracebackIdentifier;
    assert line != TracebackIdentifier by {
      assert |line| != |TracebackIdentifier|;
    }
    assert OccursAt(line, TracebackIdentifier, 2) by {
      assert line[2..] == TracebackIdentifier + "";
      StartsWithAppend(TracebackIdentifier, "");
    }
  }

  /** `output[-1].strip('\n').split(': ', 1)` unpacked into the error type and value: the
      line without its newlines, cut at the first `': '`. With no `': '` the unpacking
      raises ValueError. Joined back the way the hook prints them, the two halves give the
      line again. */
  function SplitErrorLine(last: string): (r: Result<(string, string)>)
    ensures r.Ok? <==> Contains(Strip(last, {'\n'}), ": ")
    ensures r.Err? ==> r.error == ValueError
    ensures r.Ok? ==> ErrorText(r.value.0, r.value.1) == Strip(last, {'\n'})
    ensures r.Ok? ==> !Contains(r.value.0, ": ")
  {
    match SplitOnce(Strip(last, {'\n'}), ": ")
    case None => Err(ValueError)
    case Some(halves) => Ok(halves)
  }
}

=== FILE: styles.dfy ===
/** The presentation side of backtrace.py: the colorama codes it composes, the two
    built-in style sets, and how `hook` picks or completes the style set it uses. */
module Styles {

  /** colorama's `Fore.RED`, `Fore.GREEN`, `Fore.YELLOW`, `Style.BRIGHT` and
      `Style.RESET_ALL`: ANSI escape sequences, used here only as constant text. */
  const Red := "\U{1B}[31m"
  const Green := "\U{1B}[32m"
  const Yellow := "\U{1B}[33m"
  const Bright := "\U{1B}[1m"
  const ResetAll := "\U{1B}[0m"

  /** A style template: a format string with a single `{0}` field, held as the text
      before the field and the text after it. */
  datatype Template = Template(prefix: string, suffix: string)
  {
    /** `template.format(value)`. */
    function Format(value: string): string
    {
      prefix + value + suffix
    }
  }

  /** The keys of a style dict that the formatter looks up: 'backtrace', 'error', 'line',
      'module', 'context' and 'call'. */
  datatype Role = Backtrace | Error | Line | Module | Context | Call

  /** A style set maps roles to templates. */
  type StyleSet = map<Role, Template>

  /** The roles of `STYLES`, in the order its keys are iterated. */
  const Roles: seq<Role> := [Backtrace, Error, Line, Module, Context, Call]

  /** Every role the formatter looks up has a template. */
  predicate Complete(styles: StyleSet)
  {
    && Backtrace in styles && Error in styles && Line in styles
    && Module in styles && Context in styles && Call in styles
  }

  /** `STYLES`. */
  const DefaultStyles: StyleSet := map[
    Backtrace := Template(Yellow, ""),
    Error := Template(Red + Bright, ""),
    Line := Template(Red + Bright, ""),
    Module := Template("", ""),
    Context := Template(Bright + Green, ""),
    Call := Template(Yellow + "--> " + Bright, "")
  ]

  /** `CONVERVATIVE_STYLES`: the `File`, `line` and `in` words and the commas of
      Python's own traceback layout are part of the templates. */
  const ConservativeStyles: StyleSet := map[
    Backtrace := Template(Yellow, ""),
    Error := Template(Red + Bright, ""),
    Line := Template("line " + Red + Bright, ","),
    Module := Template("File ", ","),
    Context := Template("in " + Bright + Green, ""),
    Call := Template(Yellow + "--> " + Bright, "")
  ]

  /** `Roles` lists exactly the keys of `STYLES`. */
  lemma RolesAreDefaultKeys()
    ensures forall k :: k in Roles <==> k in DefaultStyles
  {
    assert Roles == [Roles[0], Roles[1], Roles[2], Roles[3], Roles[4], Roles[5]];
  }

  /** Both built-in sets give a template to every role the formatter looks up. The
      conservative set keeps the header, error and call templates of `STYLES` and
      replaces the line, module and function ones. */
  lemma BuiltInStyleSets()
    ensures Complete(DefaultStyles) && Complete(ConservativeStyles)
    ensures ConservativeStyles.Keys == DefaultStyles.Keys
    ensures ConservativeStyles[Backtrace] == DefaultStyles[Backtrace]
    ensures ConservativeStyles[Error] == DefaultStyles[Error]
    ensures ConservativeStyles[Call] == DefaultStyles[Call]
    ensures ConservativeStyles[Line] != DefaultStyles[Line]
    ensures ConservativeStyles[Module] != DefaultStyles[Module]
    ensures ConservativeStyles[Context] != DefaultStyles[Context]
  {
  }

  /** The style choice in `hook`. Conservative mode takes the conservative set and ignores
      the caller's styles. Otherwise the caller's styles are completed from `STYLES`: each
      key the caller gave keeps its template, and each role the caller left out gets the
      default one. No styles (`None`, or an empty dict) means `STYLES` itself. */
  method MergeStyles(conservative: bool, user: StyleSet) returns (styles: StyleSet)
    ensures Complete(styles)
    ensures conservative ==> styles == ConservativeStyles
    ensures !conservative ==> styles.Keys == user.Keys + DefaultStyles.Keys
    ensures !conservative ==> forall k | k in user :: styles[k] == user[k]
    ensures !conservative ==> forall k | k in DefaultStyles && k !in user :: styles[k] == DefaultStyles[k]
  {
    if conservative {
      styles := ConservativeStyles;
    } else if user != map[] {
      styles := user;
      var i := 0;
      while i < |Roles|
        invariant 0 <= i <= |Roles|
        invariant forall k :: k in styles <==> k in user || k in Roles[..i]
        invariant forall k | k in user :: styles[k] == user[k]
        invariant forall k | k in styles && k !in user :: k in DefaultStyles && styles[k] == DefaultStyles[k]
      {
        var k := Roles[i];
        styles := styles[k := if k in styles then styles[k] else DefaultStyles[k]];
        i := i + 1;
      }
      assert Roles[..i] == Roles;
      RolesAreDefaultKeys();
      assert Complete(DefaultStyles);
    } else {
      styles := DefaultStyles;
    }
  }
}
